=== FILE: README.md ===
# Bitbucket pull-request diff and comment summaries, modelled in Dafny

`bitbucket_api_test.py` is a smoke-test client for a Bitbucket Server REST
API. Its only real logic takes what the server returns and reshapes it for
review by a person or a language model. This project models that logic as
pure functions and proves properties about them.

- **Diff summary** (`get_pull_request_diff`) — module `DiffSummary`. It
  splits the diff text into lines and keeps one record per `diff --git`
  header that has a path: path, type, additions and deletions. It also keeps
  diff-wide totals and a large-PR flag.
- **Code-review extraction** (`get_pr_for_code_review`) — module
  `CodeReview`. It groups the lines into files, files into hunks (opened by
  `@@`), and hunks into tagged changes (`added`, `removed`, `context`). Files
  without a hunk are dropped, and the list is cut down by size.
  - The loop is modelled as written. A new header discards the open hunk,
    so the last hunk of every non-final file is lost.
  - It is also modelled with that hunk kept (see Findings).
- **Detailed sections** (`get_detailed_file_changes`) — module
  `DetailedChanges`. One section per header, with its `@@` lines as context
  and its tagged change lines.
- **Comment summary** (`get_pull_request_comments`) — module `Comments`.
  - Keeps the `COMMENTED` activities.
  - Classifies each as inline (it has an anchor) or general.
  - Cuts the display text and the hashes.
  - Stable-sorts by (is general, path, line).
  - Collects the commented paths.
- **Commit list and branch label** (`get_commits`, `list_branches`) — module
  `Commits`. The short hash, the whole-second date and the shortened
  message.
- **Review guidance** (`get_pr_summary_for_llm`) — module `Guidance`. The
  strategy label, its focus areas and the attention files picked from a
  code review.

Shared modules:

- `Text` holds Python's `split`, `strip`, `startswith` and slicing, with the
  `split`/`join` round trip proved.
- `Groups` cuts a sequence into runs, each opened by a start element.
- `DiffLines` classifies diff lines.
- `Formats` holds the hash and timestamp conventions.

Each parser is written as the loop of its Python function: a fold over
the lines that carries the loop's state. It is proved equal to an
independent reference computed run by run from `Groups.Group`. The exact
records, sections and hunks are stated through that equality
(`DiffSummary.ScanIsPerRun`, `CodeReview.ParseIsRef` and
`CodeReview.ReviewFilesRef`, `DetailedChanges.DetailParseIsRef` and
`DetailedChanges.DetailSectionsRef`); the shape and count contracts
(`DiffSummary.Scan`, `CodeReview.StepShape`, `CodeReview.ParseShape`,
`CodeReview.ReviewFiles`, `DetailedChanges.DetailStep`,
`DetailedChanges.DetailParse`) are proved on the loop itself.

The HTTP response is a parameter: the diff text, or a sequence of activity
or commit records standing in for the JSON list.

## Model

| member | source | states |
|---|---|---|
| Text.JoinSplit | bitbucket_api_test.py:318 | joining the pieces of `split('\n')` with the separator gives back the diff text, so no character is lost or invented by the line split |
| Text.SplitJoin | bitbucket_api_test.py:318 | splitting a join of separator-free pieces gives back the pieces: the line split is the exact inverse of joining lines |
| Text.SplitCount | bitbucket_api_test.py:329-330 | a split has one more part than the text has separators |
| Text.Strip | bitbucket_api_test.py:799 | `strip()` returns the slice after the leading and before the trailing whitespace, and it neither starts nor ends with whitespace |
| Text.FirstPieceIsPrefix | bitbucket_api_test.py:799 | the first part of a split is a prefix of the text |
| Text.FirstPieceEnd | bitbucket_api_test.py:799 | the first part of a split ends at the end of the text or just before a separator |
| DiffLines.KindsExclusive | bitbucket_api_test.py:327-354 | a header, a mode line, an `@@` line and a `+`, `-` or space line exclude each other, so the order of the `elif` chain does not matter for them |
| DiffLines.HasPathIffThreeSpaces | bitbucket_api_test.py:329-330 | a header has at least four space-separated parts exactly when it holds at least three spaces |
| DiffLines.HeaderPathSpec | bitbucket_api_test.py:329-331 | the path is the third part of the header without its first two characters, and `unknown` for a header with fewer than four parts |
| DiffLines.LastModeAdded | bitbucket_api_test.py:339-344 | a file ends up `added` exactly when a `new file mode` line comes after every `deleted file mode` line of its run: the last mode line wins |
| DiffLines.ChangeOf | bitbucket_api_test.py:447-458 | a line gives a change exactly when it is an addition, a deletion or a context line; the change is the line without its first character, tagged `added` for `+` lines other than `+++` and `removed` for `-` lines other than `---` |
| DiffLines.ChangesOfCounts | bitbucket_api_test.py:447-458 | the stored changes of a run hold one `added` entry per addition line and one `removed` entry per deletion line |
| DiffLines.ChangesOfSource | bitbucket_api_test.py:449-458 | every stored change is a line of the run with its marker character cut off, and reading that line again gives the same change, so it is never a `+++` or `---` line |
| DiffSummary.Step | bitbucket_api_test.py:327-354 | one line of the loop: a header with at least four parts appends exactly one new record with its path, zero counts and type `modified`, keeping every earlier record; any other header changes nothing; an addition or deletion line adds one to its diff-wide counter; other lines never change a record before the current one, nor the current record's path |
| DiffSummary.Scan | bitbucket_api_test.py:326-354 | after the loop there is one record per header with a path, and the diff-wide counters count every addition and deletion line, whether or not a record is open |
| DiffSummary.Summarize | bitbucket_api_test.py:318-364 | `total_files` is the number of records, which is the number of headers with at least four parts; `large_pr` holds exactly when the diff has more than 100000 characters |
| DiffSummary.ScanIsPerRun | bitbucket_api_test.py:326-354 | the records are exactly one record per run of lines opened by a header with a path, computed from that run as a whole |
| DiffSummary.SummaryFiles | bitbucket_api_test.py:327-354 | record `i` takes its path from the `i`-th header with a path; its counts are the addition and deletion lines up to the next such header; its type is set by the last mode line among them |
| DiffSummary.RunStatsCount | bitbucket_api_test.py:345-354 | the per-file counts add up to the change lines inside the runs |
| DiffSummary.SummaryTotals | bitbucket_api_test.py:345-354 | the diff-wide totals are the sums of the per-file counts plus the change lines before the first header with at least four space-separated parts; so they are never smaller, and they are equal exactly when no change line precedes that header |
| CodeReview.StepShape | bitbucket_api_test.py:412-458 | one line of the loop (`CodeReview.Step`): the kept files are only ever appended to, and only at a header, which keeps at most the file it closes (as written without its open hunk, and with it when the hunk is closed at the header) and opens an empty file named after the header; other lines never open a file; only files with a hunk are kept |
| CodeReview.ParseShape | bitbucket_api_test.py:411-458 | after the loop (`CodeReview.Parse`) a file is open exactly when a header has been seen, every kept file has a hunk, and the kept and open files together number at most the headers |
| CodeReview.ReviewFiles | bitbucket_api_test.py:411-464 | `files_for_review` holds only files with at least one hunk, and at most one per header; the exact files are stated by `CodeReview.ReviewFilesRef` |
| CodeReview.ParseIsRef | bitbucket_api_test.py:411-458 | after every prefix of the lines, the loop state equals the reference state: the files at their headers so far, and the open file with its open hunk rebuilt from the current run |
| CodeReview.ReviewFilesRef | bitbucket_api_test.py:411-464 | the returned files are the records each run has when the next header is seen, then the complete record of the final run, keeping those with at least one hunk |
| CodeReview.AsWrittenAtHeader | bitbucket_api_test.py:412-427 | as written, a file followed by another header keeps all its hunks but the last, with the path, type and totals of its complete record; so it is kept only with two or more hunks, and its totals exceed the sums over its kept hunks by the lost hunk's counts |
| CodeReview.AsWrittenLosesHunk | bitbucket_api_test.py:412-427 | on a concrete two-file diff, the code as written returns the first file with one of its two hunks and a deletion total that its hunks do not account for; with the hunk closed at the header, both hunks are kept and the totals match |
| CodeReview.IntendedFiles | bitbucket_api_test.py:411-464 | with the open hunk closed at every header, the files are exactly the complete records of the header runs that have at least one hunk |
| CodeReview.ReviewFilesWellFormed | bitbucket_api_test.py:447-464 | every returned file has a hunk; every hunk starts with its `@@` line and counts exactly its `added` and `removed` entries, not its context lines; file totals are at least the sums over the hunks, and exactly those sums when the hunk is closed at every header |
| CodeReview.Shown | bitbucket_api_test.py:480-487 | a large diff shows the first five of the files with more than ten changed lines; any other diff shows the first eight files; shown files are returned files |
| CodeReview.CodeReviewOf | bitbucket_api_test.py:466-536 | the totals are taken over all files before the cut; `review_strategy` is `detailed` exactly when the diff has at most 50000 characters; the returned files are `CodeReview.Shown` of all files: the first five significant files of a large diff, else the first eight files |
| CodeReview.CodeReviewFilesWellFormed | bitbucket_api_test.py:460-487 | every file of the returned review has at least one hunk and well-formed hunks, and totals at least the sums over its hunks |
| DetailedChanges.DetailedOf | bitbucket_api_test.py:546-614 | `total_files` is the number of sections, which is the number of `diff --git` lines, including files without changes |
| DetailedChanges.DetailStep | bitbucket_api_test.py:553-575 | one line of the loop: a header appends the open section, if any, to the closed ones and opens an empty one named after it; any other line only appends to the open section's changes and context, keeping its path; closed sections are never changed |
| DetailedChanges.DetailParse | bitbucket_api_test.py:552-575 | after the loop a section is open exactly when a header has been seen, and the closed sections plus the open one number exactly the headers |
| DetailedChanges.DetailSections | bitbucket_api_test.py:552-579 | `file_sections` has exactly one section per `diff --git` line; which section each is, is stated by `DetailedChanges.DetailSectionsRef` |
| DetailedChanges.DetailParseIsRef | bitbucket_api_test.py:552-575 | after every prefix of the lines, the loop state equals the sections of the finished runs plus the section of the current run |
| DetailedChanges.DetailSectionsRef | bitbucket_api_test.py:552-579 | the sections are exactly one section per run opened by a header |
| DetailedChanges.DetailSectionsSpec | bitbucket_api_test.py:553-579 | section `i` takes its path from the `i`-th header; its context is exactly the `@@` lines of its run; its changes hold one entry per addition and per deletion line of the run; each change is a line of the run that reads back as that same change, so no `+++` or `---` line |
| DetailedChanges.HunkLinesNeverChanges | bitbucket_api_test.py:566-568 | an `@@` line never becomes a change |
| DetailedChanges.PrefixIgnored | bitbucket_api_test.py:565 | lines before the first header do not change the sections |
| Formats.ShortHash | bitbucket_api_test.py:650-651 | a short hash is the first eight characters of the hash, or the whole of a shorter one |
| Formats.EpochSeconds | bitbucket_api_test.py:645 | a timestamp in milliseconds becomes whole seconds rounded down, and a missing or zero timestamp becomes 0; this is the `created_date` rule, and `commit_date` at line 802 uses the same one |
| Comments.DisplayText | bitbucket_api_test.py:653-657 | the display text is the text itself when it has at most 150 characters, else its first 150 characters followed by `...` |
| Comments.InfoOf | bitbucket_api_test.py:631-651 | a comment is inline exactly when it has an anchor; an inline entry carries the anchor's path, line and line type, and hashes that are exactly the first eight characters of the anchor's (`[:8]`); a general entry carries none of them |
| Comments.CollectStep | bitbucket_api_test.py:630-658 | one activity: a `COMMENTED` one appends its entry and adds one to exactly one counter, the inline one when it has an anchor; any other activity changes nothing; earlier entries are never changed, and an inline counter that counts the inline entries keeps doing so |
| Comments.Collect | bitbucket_api_test.py:629-660 | there is one entry per `COMMENTED` activity; inline plus general counts equal the number of entries; the inline count is the number of commented activities with an anchor and the number of inline entries |
| Comments.CollectIsInfos | bitbucket_api_test.py:629-660 | the entries are those of the `COMMENTED` activities, in activity order |
| Comments.KeyLessOrder | bitbucket_api_test.py:663 | the tuple comparison on sort keys is a strict total order |
| Comments.SortByKey | bitbucket_api_test.py:663 | the sorted list is ascending by key and holds the same entries, as a multiset |
| Comments.SortStable | bitbucket_api_test.py:663 | the sort is stable: for every key, the entries with that key keep their input order |
| Comments.SortedInlineFirst | bitbucket_api_test.py:663 | after sorting, all inline comments precede all general ones, ordered by path and then by line number |
| Comments.GeneralsKeepOrder | bitbucket_api_test.py:663 | general comments share one key, so they keep their input order |
| Comments.CommentsOf | bitbucket_api_test.py:629-697 | `total_comments` equals `inline_comments` plus `general_comments`, which equals the number of `COMMENTED` activities; the comments are sorted and are the entries of those activities; the sort is stable, so entries with equal keys (two inline comments on the same path and line, or any two general ones) keep their activity order |
| Comments.FilesWithComments | bitbucket_api_test.py:697 | a path is listed exactly when it is non-empty and is the anchor path of some `COMMENTED` comment |
| Comments.CommentsGeneralOrder | bitbucket_api_test.py:629-663 | the general comments of the result appear in activity order |
| Commits.ShortMessage | bitbucket_api_test.py:799 | a stripped message of at most 100 characters is kept whole, newlines included; a longer one becomes a newline-free prefix ending at the first newline or after 100 characters, followed by `...` |
| Commits.CommitOf | bitbucket_api_test.py:796-803 | the full hash is kept and the short hash is a prefix of it of up to eight characters; the message is shortened and the timestamp turned into seconds |
| Commits.CommitsOf | bitbucket_api_test.py:795-805 | one entry per commit, in response order |
| Commits.LatestCommitLabel | bitbucket_api_test.py:151 | a branch's latest commit shows as `N/A` when missing or empty, else as exactly the first eight characters of the hash (`[:8]`), which is never empty |
| Commits.LatestLabelIsCommitId | bitbucket_api_test.py:151 | a branch is labelled with the same short hash that `get_commits` lists for its latest commit (line 797) |
| Guidance.GuidanceOf | bitbucket_api_test.py:720-732 | the guidance is focused exactly when a review exists and its strategy is focused; a missing review names no files; a focused one names at most five; the focus areas are `major_modifications`, `key_files` for a focused review and `line_level_changes`, `detailed_review`, `code_quality` otherwise |
| Guidance.PathsOverSpec | bitbucket_api_test.py:725 | a path is named exactly when some file with that path has more changed lines than the threshold |
| Guidance.FocusedAttentionFiles | bitbucket_api_test.py:721-726 | for a focused review, the attention files are exactly the returned files with more than 20 changed lines, since such a review never holds more than five files |
| Guidance.ComprehensiveAttentionFiles | bitbucket_api_test.py:727-732 | for a detailed review, the attention files are exactly its files with more than 5 changed lines |

## Left out

- HTTP: `_make_request`, the session setup and endpoint URLs. The response text or JSON list is a parameter. A failed request (`None`) is modelled only where a caller branches on it (`Guidance.GuidanceOf`).
- All printed output: emoji maps, and display caps that affect nothing returned (3 hunks, 25 lines per hunk, 20 lines per file, `max_files`).
- The constant fields `ready_for_llm_review`, `detailed_view` and `analysis_ready`: they never depend on the input.
- Pass-through reshaping in the repository, branch, tag, pull-request and code-search methods; these only copy dictionary fields. Of `list_branches`, only the `latest_commit` label is modelled.
- Orchestration in `get_pr_summary_for_llm`: three network calls. Only its attention-file filter is modelled.
- The `test_*` functions and `main`: a manual driver that prints results and asserts nothing.
- Strings are sequences of Unicode code points. Python `str` subtleties beyond that, such as lone surrogates, are not modelled.
- Comments.InfoOf: a JSON field that is present but null makes `get_pull_request_comments` raise an exception where it calls a method on it. The model has no null for these fields, so it does not model that failure. This covers a null `comment` (line 631), a null `author` (line 644), and a null `text`, `fromHash` or `toHash`.
- Comments.CommentsOf: `files_with_comments` is a list built from a set, in an order Python does not fix. It is modelled as a set.
- Comments.KeyLessOrder: the line-number part of the key is assumed to be an integer. `list.sort` would raise if it held another type.
- Commits.CommitOf: `parent_count` is taken as a given count. The `parents` list itself is not modelled. A present-but-null `id`, `message`, `author` or `parents` (lines 797-803) makes `get_commits` raise an exception. The model has plain strings for `id` and `message`, only the author's names (never a null author object) and a count for `parents`, so it does not model that failure.
- CodeReview.CodeReviewOf: takes `flushOnHeader` to choose between the loop as written (`false`) and the corrected loop (`true`). Every property about the as-written loop is stated with `false`.

## Findings

| source | as written | input that shows it | evidently intended | confidence | as-written member | corrected member |
|---|---|---|---|---|---|---|
| bitbucket_api_test.py:412-427 | a new `diff --git` header sets `current_hunk = None` without appending the open hunk to the file it closes. The last hunk of every non-final file is lost; its counts stay in the file's totals; a non-final file with one hunk is not returned | the lines `diff --git`, `@@`, `+`, `@@`, `-`, `diff --git`, `@@`, `+`: the first file comes back with one hunk and `total_deletions` 1, while its hunks hold no deletion | close the open hunk at a header, as the code does at the end of the text (lines 460-462), so every hunk is kept and the totals equal the sums over the hunks | not executed | CodeReview.AsWrittenLosesHunk | CodeReview.IntendedFiles |

=== FILE: code_review.dfy ===
/**
 The code-review extraction (`get_pr_for_code_review`): the diff is cut into
 files at `diff --git` headers and each file into hunks at `@@` lines; a hunk
 stores its header line and its tagged change lines, and counts additions
 and deletions, which are also added to the file's totals. Files without a
 hunk are not returned. The list is then truncated by size.

 The loop is modelled twice, as `Parse(lines, flushOnHeader)`:
 - `flushOnHeader == false` is the code as written: a new header starts a
   new file without first appending the open hunk to the file it closes, so
   the last hunk of every file but the final one is lost (while its counts
   stay in that file's totals), and such a file with a single hunk is not
   returned at all;
 - `flushOnHeader == true` is the evidently intended loop, which closes the
   open hunk at a header just as it does at the end of the text.

 Both are proved equal to a reference computed run by run from the
 grouping of `Groups`: one file per run opened by a header, one hunk per run
 opened by an `@@` line inside it.
 */
module CodeReview {
  import opened Wrappers
  import opened Text
  import opened Groups
  import opened DiffLines

  /** A hunk: `{'header', 'changes', 'additions', 'deletions'}`. */
  datatype Hunk = Hunk(header: string, changes: seq<Change>, additions: nat, deletions: nat)

  /** A file: `{'file_path', 'file_type', 'hunks', 'total_additions', 'total_deletions'}`. */
  datatype ReviewFile = ReviewFile(
    path: string,
    fileType: FileType,
    hunks: seq<Hunk>,
    totalAdditions: nat,
    totalDeletions: nat)

  /** The file being read (`current_file`) and its open hunk (`current_hunk`), if any. */
  datatype Open = Open(file: ReviewFile, hunk: Option<Hunk>)

  /** The loop state: the files kept so far and the open file, if a header has been seen. */
  datatype ReviewState = ReviewState(done: seq<ReviewFile>, open: Option<Open>)

  function NewFile(path: string): ReviewFile { ReviewFile(path, Modified, [], 0, 0) }

  function NewHunk(header: string): Hunk { Hunk(header, [], 0, 0) }

  predicate HasHunks(f: ReviewFile) { |f.hunks| > 0 }

  /** The open file with its open hunk, if any, appended to its hunks. */
  function Close(o: Open): ReviewFile
  {
    match o.hunk
    case None => o.file
    case Some(h) => o.file.(hunks := o.file.hunks + [h])
  }

  /** A file is kept only if it has at least one hunk. */
  function Keep(done: seq<ReviewFile>, f: ReviewFile): seq<ReviewFile>
  {
    if HasHunks(f) then done + [f] else done
  }

  /** A line inside the open hunk: a change line is stored and counted, any other line is ignored. */
  function AddLine(h: Hunk, line: string): Hunk
  {
    match ChangeOf(line)
    case None => h
    case Some(c) =>
      Hunk(h.header, h.changes + [c],
           h.additions + (if IsAddition(line) then 1 else 0),
           h.deletions + (if IsDeletion(line) then 1 else 0))
  }

  /** One non-header line while a file is open. */
  function OpenStep(o: Open, line: string): Open
  {
    if IsNewFileMode(line) then o.(file := o.file.(fileType := Added))
    else if IsDeletedFileMode(line) then o.(file := o.file.(fileType := Deleted))
    else if IsHunkStart(line) then Open(Close(o), Some(NewHunk(line)))
    else
      match o.hunk
      case None => o
      case Some(h) =>
        var f := o.file;
        Open(f.(totalAdditions := f.totalAdditions + (if IsAddition(line) then 1 else 0),
                totalDeletions := f.totalDeletions + (if IsDeletion(line) then 1 else 0)),
             Some(AddLine(h, line)))
  }

  /**
   One iteration of the loop. At a header the open file is kept if it has
   hunks; as written (`flushOnHeader == false`) its open hunk is not added
   to it first. Lines before the first header are ignored.
   */
  function Step(s: ReviewState, line: string, flushOnHeader: bool): ReviewState
  {
    if IsHeader(line) then
      var done := match s.open
        case None => s.done
        case Some(o) => Keep(s.done, if flushOnHeader then Close(o) else o.file);
      ReviewState(done, Some(Open(NewFile(HeaderPath(line)), None)))
    else
      match s.open
      case None => s
      case Some(o) => ReviewState(s.done, Some(OpenStep(o, line)))
  }

  /** The state after the loop has seen `lines`. */
  function Parse(lines: seq<string>, flushOnHeader: bool): ReviewState
  {
    if |lines| == 0 then ReviewState([], None)
    else Step(Parse(lines[..|lines| - 1], flushOnHeader), lines[|lines| - 1], flushOnHeader)
  }

  /**
   One iteration never changes the kept files, only appends to them, and
   only at a header, where it keeps at most the file it closes, then opens
   an empty file named after the header. Other lines leave a missing open
   file missing. Only files with a hunk are kept.
   */
  lemma StepShape(s: ReviewState, line: string, flushOnHeader: bool)
    ensures var r := Step(s, line, flushOnHeader);
            && s.done <= r.done
            && (!IsHeader(line) ==> r.done == s.done && r.open.Some? == s.open.Some?)
            && (IsHeader(line) ==> r.open == Some(Open(NewFile(HeaderPath(line)), None)))
            && (IsHeader(line) ==> |r.done| <= |s.done| + (if s.open.Some? then 1 else 0))
            && ((forall f :: f in s.done ==> HasHunks(f)) ==> forall f :: f in r.done ==> HasHunks(f))
    ensures var r := Step(s, line, flushOnHeader);
            IsHeader(line) && s.open.Some? ==>
              r.done[|s.done|..] <= [if flushOnHeader then Close(s.open.value) else s.open.value.file]
  {
  }

  /**
   After the loop has seen `lines`, a file is open exactly when a header has
   been seen, every kept file has a hunk, and each kept or open file comes
   from a header of its own.
   */
  lemma {:induction false} ParseShape(lines: seq<string>, flushOnHeader: bool)
    ensures var r := Parse(lines, flushOnHeader);
            && (r.open.Some? <==> CountIf(lines, IsHeader) > 0)
            && (forall f :: f in r.done ==> HasHunks(f))
            && |r.done| + (if r.open.Some? then 1 else 0) <= CountIf(lines, IsHeader)
    decreases |lines|
  {
    if |lines| > 0 {
      var init := lines[..|lines| - 1];
      ParseShape(init, flushOnHeader);
      StepShape(Parse(init, flushOnHeader), lines[|lines| - 1], flushOnHeader);
    }
  }

  /** After the loop: the open hunk is added to the open file, which is kept if it has hunks. */
  function Finish(s: ReviewState): seq<ReviewFile>
  {
    match s.open
    case None => s.done
    case Some(o) => Keep(s.done, Close(o))
  }

  /** `files_for_review` after the loop: files with at least one hunk, at most one per header. */
  function ReviewFiles(lines: seq<string>, flushOnHeader: bool): (fs: seq<ReviewFile>)
    ensures forall f :: f in fs ==> HasHunks(f)
    ensures |fs| <= CountIf(lines, IsHeader)
  {
    ParseShape(lines, flushOnHeader);
    Finish(Parse(lines, flushOnHeader))
  }

  // ----- Reference: files and hunks computed run by run -----

  /** The hunk a run of lines opened by an `@@` line describes. */
  function HunkOf(run: seq<string>): Hunk
  {
    Hunk(Head(run), ChangesOf(run), CountIf(run, IsAddition), CountIf(run, IsDeletion))
  }

  function HunksOf(runs: seq<seq<string>>): (hs: seq<Hunk>)
    ensures |hs| == |runs|
  {
    if |runs| == 0 then [] else HunksOf(runs[..|runs| - 1]) + [HunkOf(runs[|runs| - 1])]
  }

  /** Sum of the hunks' addition counts. */
  function SumAdditions(hs: seq<Hunk>): nat
  {
    if |hs| == 0 then 0 else SumAdditions(hs[..|hs| - 1]) + hs[|hs| - 1].additions
  }

  /** Sum of the hunks' deletion counts. */
  function SumDeletions(hs: seq<Hunk>): nat
  {
    if |hs| == 0 then 0 else SumDeletions(hs[..|hs| - 1]) + hs[|hs| - 1].deletions
  }

  /**
   The open file after the lines `seg` of a file whose path is `path`: every
   hunk but the last is stored, the last one is open, and the totals count
   the change lines of all of them.
   */
  function OpenFrom(path: string, seg: seq<string>): Open
  {
    var hr := Group(seg, IsHunkStart);
    var m := |hr|;
    if m == 0 then Open(ReviewFile(path, LastMode(seg), [], 0, 0), None)
    else
      Open(ReviewFile(path, LastMode(seg), HunksOf(hr[..m - 1]),
                      SumAdditions(HunksOf(hr)), SumDeletions(HunksOf(hr))),
           Some(HunkOf(hr[m - 1])))
  }

  /** The open file for a run opened by a header. */
  function OpenOf(seg: seq<string>): Open
  {
    OpenFrom(HeaderPath(Head(seg)), seg)
  }

  /** The complete record of a run opened by a header: all its hunks, and totals that are their sums. */
  function FileOf(seg: seq<string>): ReviewFile
  {
    var hs := HunksOf(Group(seg, IsHunkStart));
    ReviewFile(HeaderPath(Head(seg)), LastMode(seg), hs, SumAdditions(hs), SumDeletions(hs))
  }

  /** The record a file has when the next header is seen. */
  function AtHeader(seg: seq<string>, flushOnHeader: bool): ReviewFile
  {
    if flushOnHeader then FileOf(seg) else OpenOf(seg).file
  }

  function FilesAtHeader(runs: seq<seq<string>>, flushOnHeader: bool): (fs: seq<ReviewFile>)
    ensures |fs| == |runs|
  {
    if |runs| == 0 then []
    else FilesAtHeader(runs[..|runs| - 1], flushOnHeader) + [AtHeader(runs[|runs| - 1], flushOnHeader)]
  }

  /** The state the loop should be in after `lines`, computed from its runs. */
  function ParseRef(lines: seq<string>, flushOnHeader: bool): ReviewState
  {
    var runs := Group(lines, IsHeader);
    var k := |runs|;
    if k == 0 then ReviewState([], None)
    else ReviewState(Filter(FilesAtHeader(runs[..k - 1], flushOnHeader), HasHunks), Some(OpenOf(runs[k - 1])))
  }

  // ----- Unfolding lemmas -----

  lemma HunksOfAppend(runs: seq<seq<string>>, run: seq<string>)
    ensures HunksOf(runs + [run]) == HunksOf(runs) + [HunkOf(run)]
  {
    assert (runs + [run])[..|runs|] == runs;
  }

  lemma SumAppend(hs: seq<Hunk>, h: Hunk)
    ensures SumAdditions(hs + [h]) == SumAdditions(hs) + h.additions
    ensures SumDeletions(hs + [h]) == SumDeletions(hs) + h.deletions
  {
    assert (hs + [h])[..|hs|] == hs;
  }

  /** A hunk run with one more line is the hunk updated by that line. */
  lemma HunkAppend(run: seq<string>, line: string)
    requires |run| >= 1
    ensures HunkOf(run + [line]) == AddLine(HunkOf(run), line)
  {
    assert (run + [line])[..|run|] == run;
  }

  /** A run holding only an `@@` line is a new, empty hunk. */
  lemma HunkOfStart(line: string)
    requires IsHunkStart(line)
    ensures HunkOf([line]) == NewHunk(line)
  {
    KindsExclusive(line);
    assert [line][..0] == [];
  }

  lemma LastModeAppend(seg: seq<string>, line: string)
    ensures LastMode(seg + [line]) ==
              if IsNewFileMode(line) then Added
              else if IsDeletedFileMode(line) then Deleted
              else LastMode(seg)
  {
    assert (seg + [line])[..|seg|] == seg;
  }

  // ----- Within a file -----

  /** A `new file mode` or `deleted file mode` line changes only the type. */
  lemma OpenFromMode(path: string, seg: seq<string>, line: string)
    requires IsNewFileMode(line) || IsDeletedFileMode(line)
    ensures OpenStep(OpenFrom(path, seg), line) == OpenFrom(path, seg + [line])
  {
    KindsExclusive(line);
    LastModeAppend(seg, line);
    GroupAppend(seg, line, IsHunkStart);
    var hr := Group(seg, IsHunkStart);
    var m := |hr|;
    if m > 0 {
      ExtendLastParts(hr, line);
      HunkAppend(hr[m - 1], line);
      FrontLast(hr);
      HunksOfAppend(hr[..m - 1], hr[m - 1]);
      HunksOfAppend(hr[..m - 1], hr[m - 1] + [line]);
    }
  }

  /** An `@@` line closes the open hunk and opens a new, empty one. */
  lemma OpenFromHunkStart(path: string, seg: seq<string>, line: string)
    requires IsHunkStart(line)
    ensures OpenStep(OpenFrom(path, seg), line) == OpenFrom(path, seg + [line])
  {
    KindsExclusive(line);
    var hr := Group(seg, IsHunkStart);
    var m := |hr|;
    var hs := HunksOf(hr);
    var a := OpenFrom(path, seg);
    var b := OpenFrom(path, seg + [line]);
    assert && b.hunk == Some(NewHunk(line)) && b.file.path == path && b.file.fileType == LastMode(seg)
           && b.file.hunks == hs
           && b.file.totalAdditions == SumAdditions(hs) && b.file.totalDeletions == SumDeletions(hs) by {
      LastModeAppend(seg, line);
      GroupAppend(seg, line, IsHunkStart);
      HunkOfStart(line);
      HunksOfAppend(hr, [line]);
      SumAppend(hs, NewHunk(line));
      AppendFront(hr, [[line]]);
    }
    assert && a.file.path == path && a.file.fileType == LastMode(seg) && Close(a).hunks == hs
           && a.file.totalAdditions == SumAdditions(hs) && a.file.totalDeletions == SumDeletions(hs) by {
      if m > 0 {
        FrontLast(hr);
        HunksOfAppend(hr[..m - 1], hr[m - 1]);
      }
    }
    OpenStepHunkStart(a, line, b);
  }

  lemma OpenStepHunkStart(a: Open, line: string, b: Open)
    requires IsHunkStart(line) && !IsNewFileMode(line) && !IsDeletedFileMode(line)
    requires b.hunk == Some(NewHunk(line))
    requires b.file.path == a.file.path && b.file.fileType == a.file.fileType && b.file.hunks == Close(a).hunks
    requires b.file.totalAdditions == a.file.totalAdditions && b.file.totalDeletions == a.file.totalDeletions
    ensures OpenStep(a, line) == b
  {
  }

  /** Any other line before the file's first hunk is ignored. */
  lemma OpenFromNoHunk(path: string, seg: seq<string>, line: string)
    requires !IsNewFileMode(line) && !IsDeletedFileMode(line) && !IsHunkStart(line)
    requires |Group(seg, IsHunkStart)| == 0
    ensures OpenStep(OpenFrom(path, seg), line) == OpenFrom(path, seg + [line])
  {
    LastModeAppend(seg, line);
    GroupAppend(seg, line, IsHunkStart);
  }

  /** Any other line inside a hunk is added to it, and its counts to the file's totals. */
  lemma OpenFromInHunk(path: string, seg: seq<string>, line: string)
    requires !IsNewFileMode(line) && !IsDeletedFileMode(line) && !IsHunkStart(line)
    requires |Group(seg, IsHunkStart)| > 0
    ensures OpenStep(OpenFrom(path, seg), line) == OpenFrom(path, seg + [line])
  {
    LastModeAppend(seg, line);
    GroupAppend(seg, line, IsHunkStart);
    var hr := Group(seg, IsHunkStart);
    var m := |hr|;
    var front := hr[..m - 1];
    var last := hr[m - 1];
    ExtendLastParts(hr, line);
    HunkAppend(last, line);
    FrontLast(hr);
    HunksOfAppend(front, last);
    HunksOfAppend(front, last + [line]);
    SumAppend(HunksOf(front), HunkOf(last));
    SumAppend(HunksOf(front), HunkOf(last + [line]));
    var a := OpenFrom(path, seg);
    var b := OpenFrom(path, seg + [line]);
    assert a.hunk == Some(HunkOf(last));
    assert b.hunk == Some(AddLine(HunkOf(last), line));
    assert b.file.hunks == a.file.hunks;
    assert b.file.fileType == a.file.fileType;
    assert b.file.totalAdditions == a.file.totalAdditions + (if IsAddition(line) then 1 else 0);
    assert b.file.totalDeletions == a.file.totalDeletions + (if IsDeletion(line) then 1 else 0);
    OpenStepInHunk(a, line, b);
  }

  lemma OpenStepInHunk(a: Open, line: string, b: Open)
    requires !IsNewFileMode(line) && !IsDeletedFileMode(line) && !IsHunkStart(line)
    requires a.hunk.Some? && b.hunk == Some(AddLine(a.hunk.value, line))
    requires b.file.path == a.file.path && b.file.fileType == a.file.fileType && b.file.hunks == a.file.hunks
    requires b.file.totalAdditions == a.file.totalAdditions + (if IsAddition(line) then 1 else 0)
    requires b.file.totalDeletions == a.file.totalDeletions + (if IsDeletion(line) then 1 else 0)
    ensures OpenStep(a, line) == b
  {
  }

  /** Reading one more line of a file is one more `OpenStep`. */
  lemma OpenFromStep(path: string, seg: seq<string>, line: string)
    ensures OpenStep(OpenFrom(path, seg), line) == OpenFrom(path, seg + [line])
  {
    if IsNewFileMode(line) || IsDeletedFileMode(line) {
      OpenFromMode(path, seg, line);
    } else if IsHunkStart(line) {
      OpenFromHunkStart(path, seg, line);
    } else if |Group(seg, IsHunkStart)| == 0 {
      OpenFromNoHunk(path, seg, line);
    } else {
      OpenFromInHunk(path, seg, line);
    }
  }

  // ----- Across files -----

  /** Closing the open file of a run gives the run's complete record. */
  lemma CloseOpenOf(seg: seq<string>)
    ensures Close(OpenOf(seg)) == FileOf(seg)
  {
    var hr := Group(seg, IsHunkStart);
    var m := |hr|;
    if m > 0 {
      FrontLast(hr);
      HunksOfAppend(hr[..m - 1], hr[m - 1]);
    }
  }

  /** A header alone is a new file with that header's path and nothing else. */
  lemma OpenOfHeader(line: string)
    requires IsHeader(line)
    ensures OpenOf([line]) == Open(NewFile(HeaderPath(line)), None)
  {
    KindsExclusive(line);
    assert [line][..0] == [];
    assert Head([line]) == line;
    assert LastMode([line]) == Modified;
    assert Group([line], IsHunkStart) == [];
  }

  lemma FilesAtHeaderAppend(runs: seq<seq<string>>, run: seq<string>, flushOnHeader: bool)
    ensures FilesAtHeader(runs + [run], flushOnHeader) == FilesAtHeader(runs, flushOnHeader) + [AtHeader(run, flushOnHeader)]
  {
    AppendFront(runs, [run]);
  }

  /** After a header, the reference state holds the records of all earlier runs and a new file. */
  lemma ParseRefHeader(lines: seq<string>, line: string, flushOnHeader: bool)
    requires IsHeader(line)
    ensures ParseRef(lines + [line], flushOnHeader)
            == ReviewState(Filter(FilesAtHeader(Group(lines, IsHeader), flushOnHeader), HasHunks),
                           Some(Open(NewFile(HeaderPath(line)), None)))
  {
    var runs := Group(lines, IsHeader);
    GroupAppend(lines, line, IsHeader);
    OpenOfHeader(line);
    AppendFront(runs, [[line]]);
  }

  /** A header keeps the open file (if it has hunks) and opens a new one. */
  lemma ParseStepHeader(lines: seq<string>, line: string, flushOnHeader: bool)
    requires IsHeader(line)
    requires Parse(lines, flushOnHeader) == ParseRef(lines, flushOnHeader)
    ensures Step(Parse(lines, flushOnHeader), line, flushOnHeader) == ParseRef(lines + [line], flushOnHeader)
  {
    ParseRefHeader(lines, line, flushOnHeader);
    var runs := Group(lines, IsHeader);
    var k := |runs|;
    if k > 0 {
      var s := Parse(lines, flushOnHeader);
      var seg := runs[k - 1];
      assert s.open == Some(OpenOf(seg));
      CloseOpenOf(seg);
      StepHeaderDone(runs, s, line, flushOnHeader, AtHeader(seg, flushOnHeader));
    }
  }

  lemma StepHeaderDone(runs: seq<seq<string>>, s: ReviewState, line: string, flushOnHeader: bool, f: ReviewFile)
    requires IsHeader(line) && |runs| > 0
    requires s.done == Filter(FilesAtHeader(runs[..|runs| - 1], flushOnHeader), HasHunks)
    requires f == AtHeader(runs[|runs| - 1], flushOnHeader)
    requires s.open.Some? && f == if flushOnHeader then Close(s.open.value) else s.open.value.file
    ensures Step(s, line, flushOnHeader).done == Filter(FilesAtHeader(runs, flushOnHeader), HasHunks)
  {
    var k := |runs|;
    var front := FilesAtHeader(runs[..k - 1], flushOnHeader);
    StepHeaderKeeps(s, line, flushOnHeader, f);
    FrontLast(runs);
    FilesAtHeaderAppend(runs[..k - 1], runs[k - 1], flushOnHeader);
    FilterKeep(front, f);
  }

  lemma StepHeaderKeeps(s: ReviewState, line: string, flushOnHeader: bool, f: ReviewFile)
    requires IsHeader(line) && s.open.Some?
    requires f == if flushOnHeader then Close(s.open.value) else s.open.value.file
    ensures Step(s, line, flushOnHeader).done == Keep(s.done, f)
  {
  }

  lemma FilterKeep(fs: seq<ReviewFile>, f: ReviewFile)
    ensures Filter(fs + [f], HasHunks) == Keep(Filter(fs, HasHunks), f)
  {
    FilterAppend(fs, f, HasHunks);
  }

  /** Any other line goes to the open file, if there is one. */
  lemma ParseStepLine(lines: seq<string>, line: string, flushOnHeader: bool)
    requires !IsHeader(line)
    requires Parse(lines, flushOnHeader) == ParseRef(lines, flushOnHeader)
    ensures Step(Parse(lines, flushOnHeader), line, flushOnHeader) == ParseRef(lines + [line], flushOnHeader)
  {
    var runs := Group(lines, IsHeader);
    var k := |runs|;
    GroupAppend(lines, line, IsHeader);
    if k > 0 {
      var seg := runs[k - 1];
      LastRunNonEmpty(lines, IsHeader);
      ExtendLastParts(runs, line);
      assert Head(seg + [line]) == Head(seg);
      OpenFromStep(HeaderPath(Head(seg)), seg, line);
    }
  }

  /** The loop's state is the reference state after every prefix of the lines. */
  lemma {:induction false} ParseIsRef(lines: seq<string>, flushOnHeader: bool)
    ensures Parse(lines, flushOnHeader) == ParseRef(lines, flushOnHeader)
    decreases |lines|
  {
    if |lines| > 0 {
      var init := lines[..|lines| - 1];
      var line := lines[|lines| - 1];
      ParseIsRef(init, flushOnHeader);
      FrontLast(lines);
      if IsHeader(line) {
        ParseStepHeader(init, line, flushOnHeader);
      } else {
        ParseStepLine(init, line, flushOnHeader);
      }
    }
  }

  /**
   The files the loop returns: the record each run has when the next header
   is seen, then the complete record of the final run, keeping those with
   at least one hunk.
   */
  lemma ReviewFilesRef(lines: seq<string>, flushOnHeader: bool)
    ensures var runs := Group(lines, IsHeader);
            var k := |runs|;
            ReviewFiles(lines, flushOnHeader)
            == if k == 0 then []
               else Filter(FilesAtHeader(runs[..k - 1], flushOnHeader) + [FileOf(runs[k - 1])], HasHunks)
  {
    var runs := Group(lines, IsHeader);
    var k := |runs|;
    assert Parse(lines, flushOnHeader) == ParseRef(lines, flushOnHeader) by {
      ParseIsRef(lines, flushOnHeader);
    }
    if k > 0 {
      var front := FilesAtHeader(runs[..k - 1], flushOnHeader);
      var last := runs[k - 1];
      assert ParseRef(lines, flushOnHeader) == ReviewState(Filter(front, HasHunks), Some(OpenOf(last)));
      CloseOpenOf(last);
      FilterKeep(front, FileOf(last));
    }
  }

  /**
   With the open hunk closed at every header, the files are exactly the
   complete records of the runs opened by headers that have at least one hunk.
   */
  lemma IntendedFiles(lines: seq<string>)
    ensures ReviewFiles(lines, true) == Filter(FilesAtHeader(Group(lines, IsHeader), true), HasHunks)
    ensures forall i :: 0 <= i < |Group(lines, IsHeader)| ==>
              FilesAtHeader(Group(lines, IsHeader), true)[i] == FileOf(Group(lines, IsHeader)[i])
  {
    var runs := Group(lines, IsHeader);
    var k := |runs|;
    ReviewFilesRef(lines, true);
    if k > 0 {
      FrontLast(runs);
      FilesAtHeaderAppend(runs[..k - 1], runs[k - 1], true);
    }
    FilesAtHeaderIndex(runs, true);
  }

  lemma {:induction false} FilesAtHeaderIndex(runs: seq<seq<string>>, flushOnHeader: bool)
    ensures forall i :: 0 <= i < |runs| ==> FilesAtHeader(runs, flushOnHeader)[i] == AtHeader(runs[i], flushOnHeader)
    decreases |runs|
  {
    if |runs| > 0 {
      var k := |runs|;
      FilesAtHeaderIndex(runs[..k - 1], flushOnHeader);
      forall i | 0 <= i < k
        ensures FilesAtHeader(runs, flushOnHeader)[i] == AtHeader(runs[i], flushOnHeader)
      {
        if i < k - 1 {
          assert runs[..k - 1][i] == runs[i];
        }
      }
    }
  }

  /**
   As written, a file followed by another header loses its last hunk: its
   hunks are all but the last of its complete record, while its path, type
   and totals are those of the complete record. So it is kept only if it has
   at least two hunks, and its totals exceed the sums over its kept hunks by
   the counts of the lost one.
   */
  lemma AsWrittenAtHeader(seg: seq<string>)
    ensures var f := FileOf(seg);
            var a := AtHeader(seg, false);
            && a.path == f.path && a.fileType == f.fileType
            && a.totalAdditions == f.totalAdditions && a.totalDeletions == f.totalDeletions
            && (|f.hunks| == 0 ==> a.hunks == [])
            && (|f.hunks| > 0 ==> a.hunks == f.hunks[..|f.hunks| - 1])
            && (HasHunks(a) <==> |f.hunks| >= 2)
            && (|f.hunks| > 0 ==>
                  && a.totalAdditions == SumAdditions(a.hunks) + f.hunks[|f.hunks| - 1].additions
                  && a.totalDeletions == SumDeletions(a.hunks) + f.hunks[|f.hunks| - 1].deletions)
  {
    var hr := Group(seg, IsHunkStart);
    var m := |hr|;
    if m > 0 {
      FrontLast(hr);
      HunksOfAppend(hr[..m - 1], hr[m - 1]);
      SumAppend(HunksOf(hr[..m - 1]), HunkOf(hr[m - 1]));
    }
  }

  // ----- Properties of every returned file -----

  /** A hunk's counts are the numbers of its `added` and `removed` changes; context lines are not counted. */
  predicate CountsMatch(h: Hunk)
  {
    && h.additions == CountIf(h.changes, IsAddedChange)
    && h.deletions == CountIf(h.changes, IsRemovedChange)
  }

  /** A stored hunk: its header is its `@@` line and its counts match its changes. */
  predicate HunkWellFormed(h: Hunk)
  {
    IsHunkStart(h.header) && CountsMatch(h)
  }

  /** Every hunk of the file is well formed, and the file's totals are at least the sums over its hunks. */
  predicate FileWellFormed(f: ReviewFile)
  {
    && (forall h :: h in f.hunks ==> HunkWellFormed(h))
    && f.totalAdditions >= SumAdditions(f.hunks)
    && f.totalDeletions >= SumDeletions(f.hunks)
  }

  /** The totals are exactly the sums over the file's hunks. */
  predicate TotalsExact(f: ReviewFile)
  {
    f.totalAdditions == SumAdditions(f.hunks) && f.totalDeletions == SumDeletions(f.hunks)
  }

  lemma HunkOfWellFormed(run: seq<string>)
    requires |run| >= 1 && IsHunkStart(run[0])
    ensures HunkWellFormed(HunkOf(run))
  {
    ChangesOfCounts(run);
  }

  lemma {:induction false} HunksOfWellFormed(runs: seq<seq<string>>)
    requires forall i :: 0 <= i < |runs| ==> |runs[i]| >= 1 && IsHunkStart(runs[i][0])
    ensures forall h :: h in HunksOf(runs) ==> HunkWellFormed(h)
    decreases |runs|
  {
    if |runs| > 0 {
      var k := |runs|;
      HunksOfWellFormed(runs[..k - 1]);
      HunkOfWellFormed(runs[k - 1]);
    }
  }

  lemma HunkRunsWellFormed(seg: seq<string>)
    ensures forall h :: h in HunksOf(Group(seg, IsHunkStart)) ==> HunkWellFormed(h)
  {
    GroupSpec(seg, IsHunkStart);
    HunksOfWellFormed(Group(seg, IsHunkStart));
  }

  lemma FileOfWellFormed(seg: seq<string>)
    ensures FileWellFormed(FileOf(seg)) && TotalsExact(FileOf(seg))
  {
    HunkRunsWellFormed(seg);
  }

  lemma AtHeaderWellFormed(seg: seq<string>, flushOnHeader: bool)
    ensures FileWellFormed(AtHeader(seg, flushOnHeader))
    ensures flushOnHeader ==> TotalsExact(AtHeader(seg, flushOnHeader))
  {
    FileOfWellFormed(seg);
    if !flushOnHeader {
      AsWrittenAtHeader(seg);
      var f := FileOf(seg);
      if |f.hunks| > 0 {
        assert forall h :: h in f.hunks[..|f.hunks| - 1] ==> h in f.hunks;
      }
    }
  }

  lemma {:induction false} FilesAtHeaderWellFormed(runs: seq<seq<string>>, flushOnHeader: bool)
    ensures forall f :: f in FilesAtHeader(runs, flushOnHeader) ==> FileWellFormed(f)
    ensures flushOnHeader ==> forall f :: f in FilesAtHeader(runs, flushOnHeader) ==> TotalsExact(f)
    decreases |runs|
  {
    if |runs| > 0 {
      var k := |runs|;
      FilesAtHeaderWellFormed(runs[..k - 1], flushOnHeader);
      AtHeaderWellFormed(runs[k - 1], flushOnHeader);
    }
  }

  /**
   Every returned file has at least one hunk, every hunk starts at its `@@`
   line and counts exactly its `added` and `removed` changes, and a file's
   totals are at least the sums over its hunks; with the hunk closed at every
   header they are exactly those sums.
   */
  lemma ReviewFilesWellFormed(lines: seq<string>, flushOnHeader: bool)
    ensures forall f :: f in ReviewFiles(lines, flushOnHeader) ==> HasHunks(f) && FileWellFormed(f)
    ensures flushOnHeader ==> forall f :: f in ReviewFiles(lines, flushOnHeader) ==> TotalsExact(f)
  {
    ReviewFilesRef(lines, flushOnHeader);
    var runs := Group(lines, IsHeader);
    var k := |runs|;
    if k > 0 {
      var all := FilesAtHeader(runs[..k - 1], flushOnHeader) + [FileOf(runs[k - 1])];
      FilesAtHeaderWellFormed(runs[..k - 1], flushOnHeader);
      FileOfWellFormed(runs[k - 1]);
      FilterMember(all, HasHunks);
    }
  }

  // ----- A diff on which the loop as written loses a hunk -----

  lemma ParseAppend(lines: seq<string>, line: string, flushOnHeader: bool)
    ensures Parse(lines + [line], flushOnHeader) == Step(Parse(lines, flushOnHeader), line, flushOnHeader)
  {
    AppendFront(lines, [line]);
  }

  /** The kinds of the shortest header, hunk, addition and deletion lines. */
  lemma ExampleLineKinds()
    ensures IsHeader("diff --git") && !IsNewFileMode("diff --git")
    ensures !IsHeader("@@") && IsHunkStart("@@") && !IsNewFileMode("@@") && !IsDeletedFileMode("@@")
    ensures !IsHeader("+") && !IsHunkStart("+") && !IsNewFileMode("+") && !IsDeletedFileMode("+")
    ensures IsAddition("+") && !IsDeletion("+")
    ensures !IsHeader("-") && !IsHunkStart("-") && !IsNewFileMode("-") && !IsDeletedFileMode("-")
    ensures !IsAddition("-") && IsDeletion("-")
    ensures ChangeOf("+") == Some(Change(AddedLine, "")) && ChangeOf("-") == Some(Change(RemovedLine, ""))
  {
    KindsExclusive("@@");
    KindsExclusive("+");
    KindsExclusive("-");
  }

  /** The hunk `@@` / `+` and the hunk `@@` / `-`. */
  const AddedHunk := Hunk("@@", [Change(AddedLine, "")], 1, 0)
  const RemovedHunk := Hunk("@@", [Change(RemovedLine, "")], 0, 1)

  /** Two hunks into a first file, whichever way the hunk is closed at a header. */
  lemma ExampleFirstFile(flushOnHeader: bool)
    ensures Parse(["diff --git", "@@", "+", "@@", "-"], flushOnHeader)
            == ReviewState([], Some(Open(ReviewFile(HeaderPath("diff --git"), Modified, [AddedHunk], 1, 1),
                                         Some(RemovedHunk))))
  {
    var h, a, p, m := "diff --git", "@@", "+", "-";
    ExampleLineKinds();
    var u := HeaderPath(h);
    assert Parse([h], flushOnHeader) == ReviewState([], Some(Open(NewFile(u), None))) by {
      ParseAppend([], h, flushOnHeader);
    }
    assert Parse([h, a], flushOnHeader) == ReviewState([], Some(Open(NewFile(u), Some(NewHunk(a))))) by {
      ParseAppend([h], a, flushOnHeader);
      assert [h] + [a] == [h, a];
    }
    assert Parse([h, a, p], flushOnHeader)
           == ReviewState([], Some(Open(NewFile(u).(totalAdditions := 1), Some(AddedHunk)))) by {
      ParseAppend([h, a], p, flushOnHeader);
      assert [h, a] + [p] == [h, a, p];
      assert [] + [Change(AddedLine, "")] == [Change(AddedLine, "")];
      assert AddLine(NewHunk(a), p) == AddedHunk;
    }
    assert Parse([h, a, p, a], flushOnHeader)
           == ReviewState([], Some(Open(ReviewFile(u, Modified, [AddedHunk], 1, 0), Some(NewHunk(a))))) by {
      ParseAppend([h, a, p], a, flushOnHeader);
      assert [h, a, p] + [a] == [h, a, p, a];
      assert [] + [AddedHunk] == [AddedHunk];
    }
    ParseAppend([h, a, p, a], m, flushOnHeader);
    assert [h, a, p, a] + [m] == [h, a, p, a, m];
    assert [] + [Change(RemovedLine, "")] == [Change(RemovedLine, "")];
    assert AddLine(NewHunk(a), m) == RemovedHunk;
  }

  /** The record of the first file when the second header is seen. */
  function ExampleFirstRecord(flushOnHeader: bool): ReviewFile
  {
    ReviewFile(HeaderPath("diff --git"), Modified,
               if flushOnHeader then [AddedHunk, RemovedHunk] else [AddedHunk], 1, 1)
  }

  lemma ExampleSecondHeader(flushOnHeader: bool)
    ensures Parse(["diff --git", "@@", "+", "@@", "-", "diff --git"], flushOnHeader)
            == ReviewState([ExampleFirstRecord(flushOnHeader)], Some(Open(NewFile(HeaderPath("diff --git")), None)))
  {
    var h, a, p, m := "diff --git", "@@", "+", "-";
    ExampleLineKinds();
    var u := HeaderPath(h);
    var o := Open(ReviewFile(u, Modified, [AddedHunk], 1, 1), Some(RemovedHunk));
    assert Parse([h, a, p, a, m], flushOnHeader) == ReviewState([], Some(o)) by {
      ExampleFirstFile(flushOnHeader);
    }
    assert [AddedHunk] + [RemovedHunk] == [AddedHunk, RemovedHunk];
    assert (if flushOnHeader then Close(o) else o.file) == ExampleFirstRecord(flushOnHeader);
    ParseAppend([h, a, p, a, m], h, flushOnHeader);
    assert [h, a, p, a, m] + [h] == [h, a, p, a, m, h];
    assert [] + [ExampleFirstRecord(flushOnHeader)] == [ExampleFirstRecord(flushOnHeader)];
  }

  lemma ExampleFiles(flushOnHeader: bool)
    ensures ReviewFiles(["diff --git", "@@", "+", "@@", "-", "diff --git", "@@", "+"], flushOnHeader)
            == [ExampleFirstRecord(flushOnHeader), ReviewFile(HeaderPath("diff --git"), Modified, [AddedHunk], 1, 0)]
  {
    var h, a, p, m := "diff --git", "@@", "+", "-";
    ExampleLineKinds();
    var u := HeaderPath(h);
    var first := ExampleFirstRecord(flushOnHeader);
    var l6 := [h, a, p, a, m, h];
    assert Parse([h, a, p, a, m, h, a], flushOnHeader) == ReviewState([first], Some(Open(NewFile(u), Some(NewHunk(a))))) by {
      ExampleSecondHeader(flushOnHeader);
      ParseAppend(l6, a, flushOnHeader);
      assert l6 + [a] == [h, a, p, a, m, h, a];
    }
    assert Parse([h, a, p, a, m, h, a, p], flushOnHeader)
           == ReviewState([first], Some(Open(NewFile(u).(totalAdditions := 1), Some(AddedHunk)))) by {
      ParseAppend([h, a, p, a, m, h, a], p, flushOnHeader);
      assert [h, a, p, a, m, h, a] + [p] == [h, a, p, a, m, h, a, p];
      assert [] + [Change(AddedLine, "")] == [Change(AddedLine, "")];
      assert AddLine(NewHunk(a), p) == AddedHunk;
    }
    assert [] + [AddedHunk] == [AddedHunk];
  }

  /**
   On the diff `diff --git`, `@@`, `+`, `@@`, `-`, `diff --git`, `@@`, `+`
   the loop as written returns the first file with only its first hunk,
   while its deletion total still counts the `-` line of the lost second
   hunk; closing the hunk at the header keeps both hunks, and the totals
   then equal the sums over the hunks.
   */
  lemma AsWrittenLosesHunk()
    ensures var lines := ["diff --git", "@@", "+", "@@", "-", "diff --git", "@@", "+"];
            var written := ReviewFiles(lines, false);
            var intended := ReviewFiles(lines, true);
            && |written| == 2 && |intended| == 2
            && |written[0].hunks| == 1 && |intended[0].hunks| == 2
            && written[0].totalDeletions == 1 && SumDeletions(written[0].hunks) == 0
            && !TotalsExact(written[0])
            && intended[0].totalDeletions == SumDeletions(intended[0].hunks) == 1
  {
    ExampleFiles(false);
    ExampleFiles(true);
    var w := [AddedHunk];
    assert SumDeletions(w) == SumDeletions(w[..0]) + 0;
    var i := [AddedHunk, RemovedHunk];
    assert i[..1] == w;
    assert SumDeletions(i) == SumDeletions(w) + 1;
  }

  // ----- The returned review -----

  datatype Strategy = Detailed | Focused

  /** The returned dictionary (`ready_for_llm_review` is always true and is left out). */
  datatype Review = Review(
    files: seq<ReviewFile>,
    totalFiles: nat,
    totalAdditions: nat,
    totalDeletions: nat,
    diffSize: nat,
    strategy: Strategy)

  /** A diff longer than this many characters gets a focused review. */
  const LargeReviewSize: nat := 50000
  /** At most this many files are returned for a large diff. */
  const LargeReviewFiles: nat := 5
  /** At most this many files are returned otherwise. */
  const NormalReviewFiles: nat := 8
  /** A large diff only shows files with more changed lines than this. */
  const SignificantChanges: nat := 10

  predicate Significant(f: ReviewFile)
  {
    f.totalAdditions + f.totalDeletions > SignificantChanges
  }

  /** Sum of the files' addition totals. */
  function FilesAdditions(fs: seq<ReviewFile>): nat
  {
    if |fs| == 0 then 0 else FilesAdditions(fs[..|fs| - 1]) + fs[|fs| - 1].totalAdditions
  }

  /** Sum of the files' deletion totals. */
  function FilesDeletions(fs: seq<ReviewFile>): nat
  {
    if |fs| == 0 then 0 else FilesDeletions(fs[..|fs| - 1]) + fs[|fs| - 1].totalDeletions
  }

  function Min(a: nat, b: nat): nat { if a <= b then a else b }

  /**
   The files shown: for a large diff, the first five of the files with more
   than ten changed lines; otherwise the first eight files.
   */
  function Shown(files: seq<ReviewFile>, large: bool): (shown: seq<ReviewFile>)
    ensures forall f :: f in shown ==> f in files
    ensures large ==> |shown| == Min(LargeReviewFiles, CountIf(files, Significant))
    ensures large ==> forall f :: f in shown ==> Significant(f)
    ensures large ==> shown == Filter(files, Significant)[..|shown|]
    ensures !large ==> |shown| == Min(NormalReviewFiles, |files|)
    ensures !large ==> shown == files[..|shown|]
  {
    if large then
      var sig := Filter(files, Significant);
      FilterMember(files, Significant);
      Take(sig, LargeReviewFiles)
    else Take(files, NormalReviewFiles)
  }

  /**
   `get_pr_for_code_review` on the response text. The counts are taken over
   all kept files before the list is cut down.
   */
  function CodeReviewOf(diffText: string, flushOnHeader: bool): (r: Review)
    ensures r.totalFiles == |ReviewFiles(Lines(diffText), flushOnHeader)|
    ensures r.totalAdditions == FilesAdditions(ReviewFiles(Lines(diffText), flushOnHeader))
    ensures r.totalDeletions == FilesDeletions(ReviewFiles(Lines(diffText), flushOnHeader))
    ensures r.diffSize == |diffText|
    ensures r.strategy == Detailed <==> |diffText| <= LargeReviewSize
    ensures r.strategy == Focused ==> |r.files| <= LargeReviewFiles && forall f :: f in r.files ==> Significant(f)
    ensures r.strategy == Detailed ==> |r.files| <= NormalReviewFiles
    ensures |r.files| <= r.totalFiles
    ensures forall f :: f in r.files ==> f in ReviewFiles(Lines(diffText), flushOnHeader)
    ensures r.files == Shown(ReviewFiles(Lines(diffText), flushOnHeader), |diffText| > LargeReviewSize)
  {
    var files := ReviewFiles(Lines(diffText), flushOnHeader);
    var large := |diffText| > LargeReviewSize;
    Review(Shown(files, large), |files|, FilesAdditions(files), FilesDeletions(files), |diffText|,
           if large then Focused else Detailed)
  }

  /**
   Every file of the review has at least one hunk, its hunks are well formed
   and its totals are at least the sums over its hunks (exactly those sums
   when the hunk is closed at every header).
   */
  lemma CodeReviewFilesWellFormed(diffText: string, flushOnHeader: bool)
    ensures forall f :: f in CodeReviewOf(diffText, flushOnHeader).files ==> HasHunks(f) && FileWellFormed(f)
    ensures flushOnHeader ==> forall f :: f in CodeReviewOf(diffText, flushOnHeader).files ==> TotalsExact(f)
  {
    ReviewFilesWellFormed(Lines(diffText), flushOnHeader);
  }
}

=== FILE: comments.dfy ===
/**
 The pull-request comment summary (`get_pull_request_comments`). Only
 `COMMENTED` activities are kept. A comment with an anchor is inline, any
 other is general. Each kept comment becomes a `CommentInfo` with a display
 text cut at 150 characters and hashes cut at 8. The list is then sorted by
 the key (is general, path or "", line or 0) with a stable sort, and the
 non-empty file paths are collected into a set.
 */
module Comments {
  import opened Wrappers
  import opened Text
  import opened Groups
  import opened Formats

  /**
   The `anchor` of a comment. A missing `path`, `line` or `lineType` is
   `None`; a missing hash is the empty text, the default of `.get('fromHash', '')`.
   */
  datatype Anchor = Anchor(
    path: Option<string>,
    line: Option<int>,
    lineType: Option<string>,
    fromHash: string,
    toHash: string)

  /**
   The `comment` of an activity. `anchor` is `None` when the key is missing,
   null or an empty dictionary, the three cases `bool(anchor)` is false for.
   A missing comment is `RawComment(None, "", None, None, None)`.
   */
  datatype RawComment = RawComment(
    id: Option<int>,
    text: string,
    author: Option<string>,
    createdDate: Option<int>,
    anchor: Option<Anchor>)

  datatype Activity = Activity(action: Option<string>, comment: RawComment)

  datatype CommentType = Inline | General

  /** One entry of the returned `comments` list. */
  datatype CommentInfo = CommentInfo(
    id: Option<int>,
    text: string,
    author: Option<string>,
    createdDate: int,
    commentType: CommentType,
    filePath: Option<string>,
    lineNumber: Option<int>,
    lineType: Option<string>,
    fromHash: Option<string>,
    toHash: Option<string>,
    displayText: string)

  /** The returned dictionary; `files_with_comments` is a list built from a set, so its order is not modelled. */
  datatype CommentsSummary = CommentsSummary(
    totalComments: nat,
    inlineComments: nat,
    generalComments: nat,
    comments: seq<CommentInfo>,
    filesWithComments: set<string>)

  /** Comment texts longer than this are cut for display. */
  const DisplayLimit: nat := 150

  predicate IsCommented(a: Activity) { a.action == Some("COMMENTED") }

  predicate IsInlineActivity(a: Activity) { IsCommented(a) && a.comment.anchor.Some? }

  predicate IsInline(c: CommentInfo) { c.commentType == Inline }

  predicate IsGeneral(c: CommentInfo) { c.commentType == General }

  /** A text of at most 150 characters as it is; a longer one cut to 150 characters followed by `...`. */
  function DisplayText(text: string): (r: string)
    ensures |text| <= DisplayLimit ==> r == text
    ensures |text| > DisplayLimit ==>
              |r| == DisplayLimit + 3 && r[..DisplayLimit] == text[..DisplayLimit] && r[DisplayLimit..] == "..."
  {
    if |text| > DisplayLimit then Take(text, DisplayLimit) + "..." else text
  }

  /**
   The entry built for a kept comment: an inline one carries the anchor's
   location and shortened hashes, a general one carries none of them.
   */
  function InfoOf(c: RawComment): (r: CommentInfo)
    ensures r.id == c.id && r.text == c.text && r.author == c.author
    ensures IsInline(r) <==> c.anchor.Some?
    ensures r.createdDate == EpochSeconds(c.createdDate)
    ensures r.displayText == DisplayText(c.text)
    ensures IsGeneral(r) ==>
              r.filePath.None? && r.lineNumber.None? && r.lineType.None? && r.fromHash.None? && r.toHash.None?
    ensures IsInline(r) ==>
              && r.filePath == c.anchor.value.path && r.lineNumber == c.anchor.value.line
              && r.lineType == c.anchor.value.lineType
              && r.fromHash.Some? && StartsWith(c.anchor.value.fromHash, r.fromHash.value)
              && |r.fromHash.value| <= HashLength
              && r.toHash.Some? && StartsWith(c.anchor.value.toHash, r.toHash.value)
              && |r.toHash.value| <= HashLength
    ensures IsInline(r) ==>
              r.fromHash == Some(ShortHash(c.anchor.value.fromHash)) && r.toHash == Some(ShortHash(c.anchor.value.toHash))
  {
    match c.anchor
    case None =>
      CommentInfo(c.id, c.text, c.author, EpochSeconds(c.createdDate), General,
                  None, None, None, None, None, DisplayText(c.text))
    case Some(a) =>
      CommentInfo(c.id, c.text, c.author, EpochSeconds(c.createdDate), Inline,
                  a.path, a.line, a.lineType, Some(ShortHash(a.fromHash)), Some(ShortHash(a.toHash)),
                  DisplayText(c.text))
  }

  /** A general entry has no location, as every entry `InfoOf` builds. */
  predicate WellFormed(c: CommentInfo)
  {
    IsGeneral(c) ==> c.filePath.None? && c.lineNumber.None?
  }

  // ----- The collecting loop -----

  /** The loop state: the entries so far and the two counters. */
  datatype Tally = Tally(comments: seq<CommentInfo>, inline: nat, general: nat)

  /**
   One iteration of the loop over the activities: a `COMMENTED` activity
   appends its entry and adds one to exactly one counter; any other activity
   changes nothing. Earlier entries are never changed, and a tally whose
   inline counter counts its inline entries keeps doing so.
   */
  function CollectStep(t: Tally, a: Activity): (r: Tally)
    ensures |r.comments| == |t.comments| + (if IsCommented(a) then 1 else 0)
    ensures r.comments[..|t.comments|] == t.comments
    ensures IsCommented(a) ==> r.comments[|t.comments|] == InfoOf(a.comment)
    ensures r.inline == t.inline + (if IsInlineActivity(a) then 1 else 0)
    ensures r.inline + r.general == t.inline + t.general + (if IsCommented(a) then 1 else 0)
    ensures t.inline == CountIf(t.comments, IsInline) ==> r.inline == CountIf(r.comments, IsInline)
  {
    AppendFront(t.comments, [InfoOf(a.comment)]);
    if !IsCommented(a) then t
    else
      var info := InfoOf(a.comment);
      if a.comment.anchor.Some? then Tally(t.comments + [info], t.inline + 1, t.general)
      else Tally(t.comments + [info], t.inline, t.general + 1)
  }

  /**
   The state after the loop has seen `acts`: one entry per `COMMENTED`
   activity, each counted as exactly one of inline and general.
   */
  function Collect(acts: seq<Activity>): (t: Tally)
    ensures |t.comments| == t.inline + t.general == CountIf(acts, IsCommented)
    ensures t.inline == CountIf(acts, IsInlineActivity) == CountIf(t.comments, IsInline)
  {
    if |acts| == 0 then Tally([], 0, 0)
    else
      var t := Collect(acts[..|acts| - 1]);
      var a := acts[|acts| - 1];
      CollectStep(t, a)
  }

  /** The entries of the kept activities, in order. */
  function Infos(kept: seq<Activity>): (r: seq<CommentInfo>)
    ensures |r| == |kept|
    ensures forall i :: 0 <= i < |kept| ==> r[i] == InfoOf(kept[i].comment)
  {
    if |kept| == 0 then []
    else Infos(kept[..|kept| - 1]) + [InfoOf(kept[|kept| - 1].comment)]
  }

  lemma InfosAppend(kept: seq<Activity>, a: Activity)
    ensures Infos(kept + [a]) == Infos(kept) + [InfoOf(a.comment)]
  {
    AppendFront(kept, [a]);
  }

  /** The loop's entries are the entries of the `COMMENTED` activities, in activity order. */
  lemma {:induction false} CollectIsInfos(acts: seq<Activity>)
    ensures Collect(acts).comments == Infos(Filter(acts, IsCommented))
    decreases |acts|
  {
    if |acts| > 0 {
      var init := acts[..|acts| - 1];
      var a := acts[|acts| - 1];
      CollectIsInfos(init);
      FrontLast(acts);
      FilterAppend(init, a, IsCommented);
      if IsCommented(a) {
        InfosAppend(Filter(init, IsCommented), a);
      }
    }
  }

  // ----- The sort key and its order -----

  /** `(x['type'] == 'general', x['file_path'] or '', x['line_number'] or 0)` */
  datatype SortKey = SortKey(general: bool, path: string, line: int)

  function KeyOf(c: CommentInfo): SortKey
  {
    SortKey(IsGeneral(c), c.filePath.GetOr(""), c.lineNumber.GetOr(0))
  }

  /** Python's `<` on strings: lexicographic by code point, a proper prefix first. */
  predicate StrLess(a: string, b: string)
    decreases |a|
  {
    |b| > 0 && (|a| == 0 || a[0] < b[0] || (a[0] == b[0] && StrLess(a[1..], b[1..])))
  }

  /** Python's `<` on the key tuples: `False < True`, then the path, then the line. */
  predicate KeyLess(a: SortKey, b: SortKey)
  {
    || (!a.general && b.general)
    || (a.general == b.general && (StrLess(a.path, b.path) || (a.path == b.path && a.line < b.line)))
  }

  lemma StrLessIrreflexive(a: string)
    ensures !StrLess(a, a)
    decreases |a|
  {
    if |a| > 0 {
      StrLessIrreflexive(a[1..]);
    }
  }

  lemma {:induction false} StrLessTrans(a: string, b: string, c: string)
    requires StrLess(a, b) && StrLess(b, c)
    ensures StrLess(a, c)
    decreases |a|
  {
    if |a| > 0 && a[0] == b[0] && b[0] == c[0] {
      StrLessTrans(a[1..], b[1..], c[1..]);
    }
  }

  lemma {:induction false} StrLessTotal(a: string, b: string)
    ensures a == b || StrLess(a, b) || StrLess(b, a)
    decreases |a|
  {
    if |a| > 0 && |b| > 0 && a[0] == b[0] {
      StrLessTotal(a[1..], b[1..]);
      if a[1..] == b[1..] {
        assert a == [a[0]] + a[1..] && b == [b[0]] + b[1..];
      }
    }
  }

  /** The key order is a strict total order. */
  lemma KeyLessOrder(a: SortKey, b: SortKey, c: SortKey)
    ensures !KeyLess(a, a)
    ensures KeyLess(a, b) && KeyLess(b, c) ==> KeyLess(a, c)
    ensures a == b || KeyLess(a, b) || KeyLess(b, a)
  {
    StrLessIrreflexive(a.path);
    StrLessTotal(a.path, b.path);
    if KeyLess(a, b) && KeyLess(b, c) && a.general == b.general == c.general {
      if StrLess(a.path, b.path) && StrLess(b.path, c.path) {
        StrLessTrans(a.path, b.path, c.path);
      }
    }
  }

  /** `a` less than `b`, and `b` at most `c`: then `a` is less than `c`. */
  lemma KeyLessLe(a: SortKey, b: SortKey, c: SortKey)
    requires KeyLess(a, b) && !KeyLess(c, b)
    ensures KeyLess(a, c)
  {
    KeyLessOrder(b, c, c);
    KeyLessOrder(a, b, c);
  }

  /** Ascending by key: no entry has a smaller key than one before it. */
  predicate Sorted(s: seq<CommentInfo>)
  {
    forall i, j :: 0 <= i < j < |s| ==> !KeyLess(KeyOf(s[j]), KeyOf(s[i]))
  }

  // ----- The stable sort -----

  /** Where `x` goes in a sorted list: after every entry whose key is not larger than its own. */
  function InsertPos(s: seq<CommentInfo>, x: CommentInfo): (p: nat)
    ensures p <= |s|
    ensures forall j :: 0 <= j < p ==> !KeyLess(KeyOf(x), KeyOf(s[j]))
    ensures p < |s| ==> KeyLess(KeyOf(x), KeyOf(s[p]))
  {
    if |s| == 0 then 0
    else if KeyLess(KeyOf(x), KeyOf(s[0])) then 0
    else
      var p := 1 + InsertPos(s[1..], x);
      assert forall j :: 1 <= j < p ==> s[j] == s[1..][j - 1];
      p
  }

  /** In a sorted list, every entry from the insertion point on has a larger key. */
  lemma InsertPosAfter(s: seq<CommentInfo>, x: CommentInfo)
    requires Sorted(s)
    ensures forall j :: InsertPos(s, x) <= j < |s| ==> KeyLess(KeyOf(x), KeyOf(s[j]))
  {
    var p := InsertPos(s, x);
    forall j | p <= j < |s|
      ensures KeyLess(KeyOf(x), KeyOf(s[j]))
    {
      if p < j {
        KeyLessLe(KeyOf(x), KeyOf(s[p]), KeyOf(s[j]));
      }
    }
  }

  function Insert(s: seq<CommentInfo>, x: CommentInfo): (r: seq<CommentInfo>)
    ensures |r| == |s| + 1
    ensures multiset(r) == multiset(s) + multiset{x}
  {
    var p := InsertPos(s, x);
    assert s == s[..p] + s[p..];
    s[..p] + [x] + s[p..]
  }

  lemma InsertSorted(s: seq<CommentInfo>, x: CommentInfo)
    requires Sorted(s)
    ensures Sorted(Insert(s, x))
  {
    var p := InsertPos(s, x);
    var r := Insert(s, x);
    InsertPosAfter(s, x);
    forall i, j | 0 <= i < j < |r|
      ensures !KeyLess(KeyOf(r[j]), KeyOf(r[i]))
    {
      var ki, kj := KeyOf(r[i]), KeyOf(r[j]);
      if i < p && j == p {
        assert r[i] == s[i] && r[j] == x;
      } else if i < p && j > p {
        assert r[i] == s[i] && r[j] == s[j - 1];
      } else if i == p {
        assert r[i] == x && r[j] == s[j - 1];
        KeyLessOrder(ki, kj, ki);
      } else if j < p {
        assert r[i] == s[i] && r[j] == s[j];
      } else {
        assert r[i] == s[i - 1] && r[j] == s[j - 1];
      }
    }
  }

  /**
   `comments.sort(key=...)`: insertion of each entry in turn after all the
   entries already placed whose key is not larger. The result is sorted and
   holds the same entries; `SortStable` shows it keeps the input order among
   equal keys.
   */
  function SortByKey(xs: seq<CommentInfo>): (r: seq<CommentInfo>)
    ensures |r| == |xs|
    ensures multiset(r) == multiset(xs)
    ensures Sorted(r)
  {
    if |xs| == 0 then []
    else
      var s := SortByKey(xs[..|xs| - 1]);
      FrontLast(xs);
      InsertSorted(s, xs[|xs| - 1]);
      Insert(s, xs[|xs| - 1])
  }

  /** The entries of `s` whose key is `k`, in order. */
  function WithKey(s: seq<CommentInfo>, k: SortKey): seq<CommentInfo>
  {
    if |s| == 0 then []
    else WithKey(s[..|s| - 1], k) + (if KeyOf(s[|s| - 1]) == k then [s[|s| - 1]] else [])
  }

  lemma {:induction false} WithKeyConcat(a: seq<CommentInfo>, b: seq<CommentInfo>, k: SortKey)
    ensures WithKey(a + b, k) == WithKey(a, k) + WithKey(b, k)
    decreases |b|
  {
    if |b| == 0 {
      assert a + b == a;
    } else {
      var init := b[..|b| - 1];
      var x := b[|b| - 1];
      WithKeyConcat(a, init, k);
      FrontLast(b);
      AppendAssoc(a, init, [x]);
      AppendFront(a + init, [x]);
      AppendAssoc(WithKey(a, k), WithKey(init, k), if KeyOf(x) == k then [x] else []);
    }
  }

  lemma {:induction false} WithKeyNone(s: seq<CommentInfo>, k: SortKey)
    requires forall j :: 0 <= j < |s| ==> KeyOf(s[j]) != k
    ensures WithKey(s, k) == []
    decreases |s|
  {
    if |s| > 0 {
      WithKeyNone(s[..|s| - 1], k);
    }
  }

  lemma WithKeyOne(x: CommentInfo, k: SortKey)
    ensures WithKey([x], k) == if KeyOf(x) == k then [x] else []
  {
    assert [x][..0] == [];
  }

  /** Cutting a list in two cuts its entries with key `k` in two. */
  lemma WithKeySplit(s: seq<CommentInfo>, p: nat, k: SortKey)
    requires p <= |s|
    ensures WithKey(s, k) == WithKey(s[..p], k) + WithKey(s[p..], k)
  {
    assert s == s[..p] + s[p..];
    WithKeyConcat(s[..p], s[p..], k);
  }

  /** The entries with key `k` of an insertion: those before the point, `x` if it has key `k`, those after. */
  lemma WithKeyInsert(s: seq<CommentInfo>, x: CommentInfo, k: SortKey)
    ensures var p := InsertPos(s, x);
            WithKey(Insert(s, x), k) == WithKey(s[..p], k) + WithKey([x], k) + WithKey(s[p..], k)
  {
    var p := InsertPos(s, x);
    var a, b := s[..p], s[p..];
    assert Insert(s, x) == (a + [x]) + b;
    WithKeyConcat(a + [x], b, k);
    WithKeyConcat(a, [x], k);
  }

  /** In a sorted list, no entry from the insertion point on has the key of `x`. */
  lemma WithKeyAfterInsertPos(s: seq<CommentInfo>, x: CommentInfo)
    requires Sorted(s)
    ensures WithKey(s[InsertPos(s, x)..], KeyOf(x)) == []
  {
    var p := InsertPos(s, x);
    var b := s[p..];
    InsertPosAfter(s, x);
    forall j | 0 <= j < |b|
      ensures KeyOf(b[j]) != KeyOf(x)
    {
      assert b[j] == s[p + j];
      KeyLessOrder(KeyOf(x), KeyOf(x), KeyOf(x));
    }
    WithKeyNone(b, KeyOf(x));
  }

  /** Inserting into a sorted list adds `x` after the entries with its key and leaves the others' order alone. */
  lemma InsertStable(s: seq<CommentInfo>, x: CommentInfo, k: SortKey)
    requires Sorted(s)
    ensures WithKey(Insert(s, x), k) == WithKey(s + [x], k)
  {
    var p := InsertPos(s, x);
    WithKeyInsert(s, x, k);
    WithKeySplit(s, p, k);
    WithKeyConcat(s, [x], k);
    WithKeyOne(x, k);
    if KeyOf(x) == k {
      WithKeyAfterInsertPos(s, x);
    }
    MiddleOrLast(WithKey(s[..p], k), WithKey([x], k), WithKey(s[p..], k));
  }

  /** The sort is stable: for every key, the entries with that key keep their input order. */
  lemma {:induction false} SortStable(xs: seq<CommentInfo>, k: SortKey)
    ensures WithKey(SortByKey(xs), k) == WithKey(xs, k)
    decreases |xs|
  {
    if |xs| > 0 {
      var init := xs[..|xs| - 1];
      var x := xs[|xs| - 1];
      SortStable(init, k);
      InsertStable(SortByKey(init), x, k);
      WithKeyConcat(SortByKey(init), [x], k);
      WithKeyConcat(init, [x], k);
      FrontLast(xs);
    }
  }

  /** `SortStable` for every key at once. */
  lemma SortStableAll(xs: seq<CommentInfo>)
    ensures forall k :: WithKey(SortByKey(xs), k) == WithKey(xs, k)
  {
    forall k
      ensures WithKey(SortByKey(xs), k) == WithKey(xs, k)
    {
      SortStable(xs, k);
    }
  }

  /** Inline entries come first, ordered by path and then by line number. */
  lemma SortedInlineFirst(s: seq<CommentInfo>)
    requires Sorted(s)
    ensures forall i, j :: 0 <= i < j < |s| && IsInline(s[j]) ==> IsInline(s[i])
    ensures forall i, j :: 0 <= i < j < |s| && IsInline(s[i]) && IsInline(s[j]) ==>
              && !StrLess(s[j].filePath.GetOr(""), s[i].filePath.GetOr(""))
              && (s[i].filePath.GetOr("") == s[j].filePath.GetOr("") ==>
                    s[i].lineNumber.GetOr(0) <= s[j].lineNumber.GetOr(0))
  {
  }

  /** The key every well-formed general entry has. */
  const GeneralKey := SortKey(true, "", 0)

  /** Among well-formed entries, the general ones are exactly those with the general key. */
  lemma {:induction false} WithGeneralKey(s: seq<CommentInfo>)
    requires forall j :: 0 <= j < |s| ==> WellFormed(s[j])
    ensures WithKey(s, GeneralKey) == Filter(s, IsGeneral)
    decreases |s|
  {
    if |s| > 0 {
      var init := s[..|s| - 1];
      assert forall j :: 0 <= j < |init| ==> init[j] == s[j];
      WithGeneralKey(init);
    }
  }

  /** General comments keep their input order, since they all share one key. */
  lemma GeneralsKeepOrder(xs: seq<CommentInfo>)
    requires forall j :: 0 <= j < |xs| ==> WellFormed(xs[j])
    ensures Filter(SortByKey(xs), IsGeneral) == Filter(xs, IsGeneral)
  {
    var r := SortByKey(xs);
    forall j | 0 <= j < |r|
      ensures WellFormed(r[j])
    {
      assert r[j] in multiset(xs);
    }
    SortStable(xs, GeneralKey);
    WithGeneralKey(xs);
    WithGeneralKey(r);
  }

  // ----- The result -----

  /** The non-empty paths of the entries. */
  function FilesOf(cs: seq<CommentInfo>): set<string>
  {
    set c | c in cs && c.filePath.Some? && c.filePath.value != "" :: c.filePath.value
  }

  /** `get_pull_request_comments` on the activity list of the response. */
  function CommentsOf(acts: seq<Activity>): (r: CommentsSummary)
    ensures r.totalComments == |r.comments| == r.inlineComments + r.generalComments == CountIf(acts, IsCommented)
    ensures r.inlineComments == CountIf(acts, IsInlineActivity)
    ensures multiset(r.comments) == multiset(Infos(Filter(acts, IsCommented)))
    ensures Sorted(r.comments)
    ensures forall k :: WithKey(r.comments, k) == WithKey(Infos(Filter(acts, IsCommented)), k)
  {
    var t := Collect(acts);
    var sorted := SortByKey(t.comments);
    CollectIsInfos(acts);
    SortStableAll(t.comments);
    CommentsSummary(|sorted|, t.inline, t.general, sorted, FilesOf(sorted))
  }

  /** A listed path is the non-empty anchor path of some kept comment. */
  lemma FilesOfSound(cs: seq<CommentInfo>, kept: seq<Activity>, path: string)
    requires multiset(cs) == multiset(Infos(kept))
    requires path in FilesOf(cs)
    ensures path != "" && exists a :: a in kept && a.comment.anchor.Some? && a.comment.anchor.value.path == Some(path)
  {
    var infos := Infos(kept);
    var c :| c in cs && c.filePath == Some(path) && path != "";
    assert c in multiset(infos);
    var i :| 0 <= i < |infos| && infos[i] == c;
    assert kept[i] in kept;
  }

  /** Every non-empty anchor path of a kept comment is listed. */
  lemma FilesOfComplete(cs: seq<CommentInfo>, kept: seq<Activity>, a: Activity)
    requires multiset(cs) == multiset(Infos(kept))
    requires a in kept && a.comment.anchor.Some?
    requires a.comment.anchor.value.path.Some? && a.comment.anchor.value.path.value != ""
    ensures a.comment.anchor.value.path.value in FilesOf(cs)
  {
    var infos := Infos(kept);
    var i :| 0 <= i < |kept| && kept[i] == a;
    var c := infos[i];
    assert c in multiset(cs);
    assert c.filePath == a.comment.anchor.value.path;
  }

  /**
   A path is listed exactly when it is non-empty and is the anchor path of
   some `COMMENTED` activity's comment.
   */
  lemma FilesWithComments(acts: seq<Activity>, path: string)
    ensures path in CommentsOf(acts).filesWithComments <==>
              path != "" && exists a :: a in acts && IsInlineActivity(a) && a.comment.anchor.value.path == Some(path)
  {
    var kept := Filter(acts, IsCommented);
    var cs := CommentsOf(acts).comments;
    FilterMember(acts, IsCommented);
    if path in FilesOf(cs) {
      FilesOfSound(cs, kept, path);
    }
    if path != "" && exists a :: a in acts && IsInlineActivity(a) && a.comment.anchor.value.path == Some(path) {
      var a :| a in acts && IsInlineActivity(a) && a.comment.anchor.value.path == Some(path);
      FilterContains(acts, a, IsCommented);
      FilesOfComplete(cs, kept, a);
    }
  }

  /** General comments appear in the order their activities came in. */
  lemma CommentsGeneralOrder(acts: seq<Activity>)
    ensures var cs := Collect(acts).comments;
            Filter(CommentsOf(acts).comments, IsGeneral) == Filter(cs, IsGeneral)
  {
    var cs := Collect(acts).comments;
    CollectIsInfos(acts);
    GeneralsKeepOrder(cs);
  }
}

=== FILE: commits.dfy ===
/**
 The commit list (`get_commits`) and the latest-commit label of a branch
 (`list_branches`): short hashes, whole-second dates and the shortened
 commit message.
 */
module Commits {
  import opened Wrappers
  import opened Text
  import opened Formats

  /** A stripped message longer than this is cut to (part of) its first line. */
  const MessageLimit: nat := 100

  /**
   The shown message: the stripped message when it has at most 100
   characters; otherwise its first line, cut to 100 characters, followed by
   `...`. A short message keeps all of its lines.
   */
  function ShortMessage(message: string): (r: string)
    ensures |Strip(message)| <= MessageLimit ==> r == Strip(message)
    ensures |Strip(message)| > MessageLimit ==>
              && 3 <= |r| <= MessageLimit + 3
              && r[|r| - 3..] == "..."
              && StartsWith(Strip(message), r[..|r| - 3])
              && '\n' !in r[..|r| - 3]
              && (|r| - 3 < MessageLimit ==> Strip(message)[|r| - 3] == '\n')
  {
    var s := Strip(message);
    if |s| > MessageLimit then
      var first := Split(s, '\n')[0];
      FirstPieceIsPrefix(s, '\n');
      FirstPieceEnd(s, '\n');
      SplitNoSeparator(s, '\n');
      var body := Take(first, MessageLimit);
      var r := body + "...";
      assert r[..|r| - 3] == body && r[|r| - 3..] == "...";
      assert forall i :: 0 <= i < |body| ==> body[i] == first[i] == s[i];
      r
    else s
  }

  /** A commit of the response; missing `id` and `message` are the empty text. */
  datatype RawCommit = RawCommit(
    id: string,
    message: string,
    author: Option<string>,
    authorEmail: Option<string>,
    authorTimestamp: Option<int>,
    parentCount: nat)

  /** One entry of the returned list. */
  datatype CommitInfo = CommitInfo(
    id: string,
    fullId: string,
    message: string,
    author: Option<string>,
    authorEmail: Option<string>,
    commitDate: int,
    parentCount: nat)

  /** The entry for one commit: the full hash kept, the short hash a prefix of it. */
  function CommitOf(c: RawCommit): (r: CommitInfo)
    ensures r.fullId == c.id && StartsWith(r.fullId, r.id)
    ensures |r.id| == if |c.id| < HashLength then |c.id| else HashLength
    ensures r.message == ShortMessage(c.message)
    ensures r.author == c.author && r.authorEmail == c.authorEmail && r.parentCount == c.parentCount
    ensures r.commitDate == EpochSeconds(c.authorTimestamp)
  {
    CommitInfo(ShortHash(c.id), c.id, ShortMessage(c.message), c.author, c.authorEmail,
               EpochSeconds(c.authorTimestamp), c.parentCount)
  }

  /** The returned list: one entry per commit, in response order. */
  function CommitsOf(cs: seq<RawCommit>): (r: seq<CommitInfo>)
    ensures |r| == |cs|
    ensures forall i :: 0 <= i < |cs| ==> r[i] == CommitOf(cs[i])
  {
    if |cs| == 0 then []
    else
      var init := cs[..|cs| - 1];
      assert forall i :: 0 <= i < |init| ==> init[i] == cs[i];
      CommitsOf(init) + [CommitOf(cs[|cs| - 1])]
  }

  /** `latest_commit` of a branch: `N/A` for a missing or empty hash, else its short form. */
  function LatestCommitLabel(latest: Option<string>): (r: string)
    ensures latest.None? || latest.value == "" ==> r == "N/A"
    ensures latest.Some? && latest.value != "" ==>
              r != "" && StartsWith(latest.value, r) && |r| <= HashLength
    ensures latest.Some? && latest.value != "" ==> r == ShortHash(latest.value)
  {
    match latest
    case None => "N/A"
    case Some(h) => if h == "" then "N/A" else ShortHash(h)
  }

  /** A branch whose latest commit is `c` is labelled with the short hash `get_commits` lists for `c`. */
  lemma LatestLabelIsCommitId(c: RawCommit)
    requires c.id != ""
    ensures LatestCommitLabel(Some(c.id)) == CommitOf(c).id
  {
  }
}

=== FILE: detailed_changes.dfy ===
/**
 The detailed per-file view (`get_detailed_file_changes`): one section per
 `diff --git` header, whatever its number of parts, holding the path, the
 `@@` lines of the file as its context and its tagged change lines. Lines
 before the first header are ignored; `+++` and `---` lines are stored
 nowhere.
 */
module DetailedChanges {
  import opened Wrappers
  import opened Text
  import opened Groups
  import opened DiffLines

  /** A section: `{'file_path', 'changes', 'context'}`. */
  datatype Section = Section(path: string, changes: seq<Change>, context: seq<string>)

  /** The loop state: the finished sections and the open one, if a header has been seen. */
  datatype DetailState = DetailState(done: seq<Section>, current: Option<Section>)

  /** The returned dictionary (`detailed_view` is always true and is left out). */
  datatype Detailed = Detailed(sections: seq<Section>, totalFiles: nat)

  /** One non-header line in an open section. */
  function SectionStep(sec: Section, line: string): Section
  {
    if IsHunkStart(line) then sec.(context := sec.context + [line])
    else
      match ChangeOf(line)
      case None => sec
      case Some(c) => sec.(changes := sec.changes + [c])
  }

  /**
   One iteration of the loop: a header closes the open section and opens an
   empty one; any other line only updates the open section, if there is one.
   Closed sections are never changed.
   */
  function DetailStep(s: DetailState, line: string): (r: DetailState)
    ensures s.done <= r.done
    ensures |r.done| == |s.done| + (if IsHeader(line) && s.current.Some? then 1 else 0)
    ensures IsHeader(line) ==> r.current == Some(Section(HeaderPath(line), [], []))
    ensures !IsHeader(line) ==> r.current.Some? == s.current.Some?
    ensures IsHeader(line) && s.current.Some? ==> r.done == s.done + [s.current.value]
    ensures !IsHeader(line) && s.current.Some? ==>
              && r.current.value.path == s.current.value.path
              && s.current.value.changes <= r.current.value.changes
              && s.current.value.context <= r.current.value.context
  {
    if IsHeader(line) then
      var done := match s.current
        case None => s.done
        case Some(sec) => s.done + [sec];
      DetailState(done, Some(Section(HeaderPath(line), [], [])))
    else
      match s.current
      case None => s
      case Some(sec) => DetailState(s.done, Some(SectionStep(sec, line)))
  }

  /** The state after the loop has seen `lines`: one closed or open section per header. */
  function DetailParse(lines: seq<string>): (r: DetailState)
    ensures r.current.Some? <==> CountIf(lines, IsHeader) > 0
    ensures |r.done| + (if r.current.Some? then 1 else 0) == CountIf(lines, IsHeader)
  {
    if |lines| == 0 then DetailState([], None)
    else DetailStep(DetailParse(lines[..|lines| - 1]), lines[|lines| - 1])
  }

  /** `file_sections` after the loop: the open section is added last, giving one section per header. */
  function DetailSections(lines: seq<string>): (ss: seq<Section>)
    ensures |ss| == CountIf(lines, IsHeader)
  {
    var s := DetailParse(lines);
    match s.current
    case None => s.done
    case Some(sec) => s.done + [sec]
  }

  /** `get_detailed_file_changes` on the response text. */
  function DetailedOf(diffText: string): (r: Detailed)
    ensures r.totalFiles == |r.sections| == CountIf(Lines(diffText), IsHeader)
  {
    var sections := DetailSections(Lines(diffText));
    DetailSectionsRef(Lines(diffText));
    Detailed(sections, |sections|)
  }

  // ----- Reference: one section per run -----

  /** The section of the lines `seg` of a file whose path is `path`. */
  function SectionFrom(path: string, seg: seq<string>): Section
  {
    Section(path, ChangesOf(seg), Filter(seg, IsHunkStart))
  }

  /** The section of a run opened by a header. */
  function SectionOf(run: seq<string>): Section
  {
    SectionFrom(HeaderPath(Head(run)), run)
  }

  function SectionsOf(runs: seq<seq<string>>): (ss: seq<Section>)
    ensures |ss| == |runs|
  {
    if |runs| == 0 then [] else SectionsOf(runs[..|runs| - 1]) + [SectionOf(runs[|runs| - 1])]
  }

  /** The state the loop should be in after `lines`, computed from its runs. */
  function DetailRef(lines: seq<string>): DetailState
  {
    var runs := Group(lines, IsHeader);
    var k := |runs|;
    if k == 0 then DetailState([], None)
    else DetailState(SectionsOf(runs[..k - 1]), Some(SectionOf(runs[k - 1])))
  }

  lemma SectionsOfAppend(runs: seq<seq<string>>, run: seq<string>)
    ensures SectionsOf(runs + [run]) == SectionsOf(runs) + [SectionOf(run)]
  {
    AppendFront(runs, [run]);
  }

  lemma ChangesOfAppend(seg: seq<string>, line: string)
    ensures ChangesOf(seg + [line]) == match ChangeOf(line)
                                       case None => ChangesOf(seg)
                                       case Some(c) => ChangesOf(seg) + [c]
  {
    AppendFront(seg, [line]);
  }

  /** Reading one more line of a file is one more `SectionStep`. */
  lemma SectionFromStep(path: string, seg: seq<string>, line: string)
    ensures SectionStep(SectionFrom(path, seg), line) == SectionFrom(path, seg + [line])
  {
    ChangesOfAppend(seg, line);
    FilterAppend(seg, line, IsHunkStart);
    KindsExclusive(line);
  }

  /** A header alone is an empty section with that header's path. */
  lemma SectionOfHeader(line: string)
    requires IsHeader(line)
    ensures SectionOf([line]) == Section(HeaderPath(line), [], [])
  {
    KindsExclusive(line);
    assert [line][..0] == [];
    assert Head([line]) == line;
  }

  lemma DetailStepHeader(lines: seq<string>, line: string)
    requires IsHeader(line)
    requires DetailParse(lines) == DetailRef(lines)
    ensures DetailStep(DetailParse(lines), line) == DetailRef(lines + [line])
  {
    var runs := Group(lines, IsHeader);
    var k := |runs|;
    GroupAppend(lines, line, IsHeader);
    SectionOfHeader(line);
    AppendFront(runs, [[line]]);
    if k > 0 {
      FrontLast(runs);
      SectionsOfAppend(runs[..k - 1], runs[k - 1]);
    }
  }

  lemma DetailStepLine(lines: seq<string>, line: string)
    requires !IsHeader(line)
    requires DetailParse(lines) == DetailRef(lines)
    ensures DetailStep(DetailParse(lines), line) == DetailRef(lines + [line])
  {
    var runs := Group(lines, IsHeader);
    var k := |runs|;
    GroupAppend(lines, line, IsHeader);
    if k > 0 {
      var seg := runs[k - 1];
      LastRunNonEmpty(lines, IsHeader);
      ExtendLastParts(runs, line);
      assert Head(seg + [line]) == Head(seg);
      SectionFromStep(HeaderPath(Head(seg)), seg, line);
    }
  }

  /** The loop's state is the reference state after every prefix of the lines. */
  lemma {:induction false} DetailParseIsRef(lines: seq<string>)
    ensures DetailParse(lines) == DetailRef(lines)
    decreases |lines|
  {
    if |lines| > 0 {
      var init := lines[..|lines| - 1];
      var line := lines[|lines| - 1];
      DetailParseIsRef(init);
      FrontLast(lines);
      if IsHeader(line) {
        DetailStepHeader(init, line);
      } else {
        DetailStepLine(init, line);
      }
    }
  }

  /** The sections are exactly one `SectionOf` per run opened by a header. */
  lemma DetailSectionsRef(lines: seq<string>)
    ensures DetailSections(lines) == SectionsOf(Group(lines, IsHeader))
    ensures |DetailSections(lines)| == CountIf(lines, IsHeader)
  {
    DetailParseIsRef(lines);
    var runs := Group(lines, IsHeader);
    var k := |runs|;
    if k > 0 {
      FrontLast(runs);
      SectionsOfAppend(runs[..k - 1], runs[k - 1]);
    }
  }

  lemma {:induction false} SectionsOfIndex(runs: seq<seq<string>>)
    ensures forall i :: 0 <= i < |runs| ==> SectionsOf(runs)[i] == SectionOf(runs[i])
    decreases |runs|
  {
    if |runs| > 0 {
      var k := |runs|;
      var front := SectionsOf(runs[..k - 1]);
      SectionsOfIndex(runs[..k - 1]);
      assert SectionsOf(runs) == front + [SectionOf(runs[k - 1])];
      forall i | 0 <= i < k
        ensures SectionsOf(runs)[i] == SectionOf(runs[i])
      {
        if i < k - 1 {
          assert runs[..k - 1][i] == runs[i];
        }
      }
    }
  }

  /**
   Section `i` belongs to the `i`-th header: its path is taken from that
   header, its context holds exactly the `@@` lines up to the next header,
   and its changes hold one `added` entry per addition line and one
   `removed` entry per deletion line there (so no `+++` or `---` line),
   each the line of the run without its marker.
   */
  lemma DetailSectionsSpec(lines: seq<string>)
    ensures var runs := Group(lines, IsHeader);
            var ss := DetailSections(lines);
            && |ss| == |runs|
            && forall i :: 0 <= i < |runs| ==>
                 && |runs[i]| >= 1 && IsHeader(runs[i][0])
                 && ss[i].path == HeaderPath(runs[i][0])
                 && ss[i].context == Filter(runs[i], IsHunkStart)
                 && CountIf(ss[i].changes, IsAddedChange) == CountIf(runs[i], IsAddition)
                 && CountIf(ss[i].changes, IsRemovedChange) == CountIf(runs[i], IsDeletion)
                 && (forall c :: c in ss[i].changes ==> [Marker(c.tag)] + c.text in runs[i])
                 && (forall c :: c in ss[i].changes ==> ChangeOf([Marker(c.tag)] + c.text) == Some(c))
  {
    var runs := Group(lines, IsHeader);
    DetailSectionsRef(lines);
    SectionsOfIndex(runs);
    GroupSpec(lines, IsHeader);
    forall i | 0 <= i < |runs|
      ensures CountIf(ChangesOf(runs[i]), IsAddedChange) == CountIf(runs[i], IsAddition)
      ensures CountIf(ChangesOf(runs[i]), IsRemovedChange) == CountIf(runs[i], IsDeletion)
      ensures forall c :: c in ChangesOf(runs[i]) ==> [Marker(c.tag)] + c.text in runs[i]
      ensures forall c :: c in ChangesOf(runs[i]) ==> ChangeOf([Marker(c.tag)] + c.text) == Some(c)
    {
      ChangesOfCounts(runs[i]);
      ChangesOfSource(runs[i]);
    }
  }

  /** `@@` lines go to the context and never to the changes. */
  lemma HunkLinesNeverChanges(line: string)
    requires IsHunkStart(line)
    ensures ChangeOf(line).None?
  {
    KindsExclusive(line);
  }

  /** Lines before the first header leave the loop's state empty. */
  lemma {:induction false} PreambleIgnored(pre: seq<string>)
    requires forall i :: 0 <= i < |pre| ==> !IsHeader(pre[i])
    ensures DetailParse(pre) == DetailState([], None)
    decreases |pre|
  {
    if |pre| > 0 {
      var init := pre[..|pre| - 1];
      assert forall i :: 0 <= i < |init| ==> init[i] == pre[i];
      PreambleIgnored(init);
    }
  }

  /** Text before the first header does not change the sections. */
  lemma {:induction false} PrefixIgnored(pre: seq<string>, lines: seq<string>)
    requires forall i :: 0 <= i < |pre| ==> !IsHeader(pre[i])
    ensures DetailParse(pre + lines) == DetailParse(lines)
    decreases |lines|
  {
    if |lines| == 0 {
      assert pre + lines == pre;
      PreambleIgnored(pre);
    } else {
      var init := lines[..|lines| - 1];
      var line := lines[|lines| - 1];
      PrefixIgnored(pre, init);
      FrontLast(lines);
      AppendAssoc(pre, init, [line]);
      AppendFront(pre + init, [line]);
    }
  }
}

=== FILE: diff_lines.dfy ===
/**
 Classification of single lines of a unified diff, shared by the three diff
 summarisers of `bitbucket_api_test.py`: the `diff --git` file header and
 the path taken from it, the `new file mode` / `deleted file mode` markers,
 `@@` hunk headers, and the tagged change lines.
 */
module DiffLines {
  import opened Wrappers
  import opened Text
  import opened Groups

  /** `diff_text.split('\n')` */
  function Lines(diffText: string): seq<string>
  {
    Split(diffText, '\n')
  }

  predicate IsHeader(line: string) { StartsWith(line, "diff --git") }
  predicate IsNewFileMode(line: string) { StartsWith(line, "new file mode") }
  predicate IsDeletedFileMode(line: string) { StartsWith(line, "deleted file mode") }
  predicate IsHunkStart(line: string) { StartsWith(line, "@@") }

  /** A `+` line that is not the `+++` target-file marker. */
  predicate IsAddition(line: string) { StartsWith(line, "+") && !StartsWith(line, "+++") }

  /** A `-` line that is not the `---` source-file marker. */
  predicate IsDeletion(line: string) { StartsWith(line, "-") && !StartsWith(line, "---") }

  predicate IsContextLine(line: string) { StartsWith(line, " ") }

  /** The header's `split(' ')` has at least four parts. */
  predicate HasPath(line: string) { |Split(line, ' ')| >= 4 }

  /** A header that yields a path: the only kind that opens a record in the summary parser. */
  predicate IsPathHeader(line: string) { IsHeader(line) && HasPath(line) }

  /** The line kinds are told apart by their first character, so at most one applies. */
  lemma KindsExclusive(line: string)
    ensures IsHeader(line) ==> !IsNewFileMode(line) && !IsDeletedFileMode(line) && !IsHunkStart(line)
                               && !StartsWith(line, "+") && !StartsWith(line, "-") && !IsContextLine(line)
    ensures IsNewFileMode(line) ==> !IsDeletedFileMode(line) && !IsHunkStart(line)
                                    && !StartsWith(line, "+") && !StartsWith(line, "-") && !IsContextLine(line)
    ensures IsDeletedFileMode(line) ==> !IsHunkStart(line)
                                        && !StartsWith(line, "+") && !StartsWith(line, "-") && !IsContextLine(line)
    ensures IsHunkStart(line) ==> !StartsWith(line, "+") && !StartsWith(line, "-") && !IsContextLine(line)
    ensures StartsWith(line, "+") ==> !StartsWith(line, "-") && !IsContextLine(line)
    ensures StartsWith(line, "-") ==> !IsContextLine(line)
  {
    if |line| > 0 {
      var c := line[0];
      assert IsHeader(line) ==> c == 'd' && line[1] == 'i';
      assert IsNewFileMode(line) ==> c == 'n';
      assert IsDeletedFileMode(line) ==> c == 'd' && line[1] == 'e';
      assert IsHunkStart(line) ==> c == '@';
      assert StartsWith(line, "+") ==> c == '+';
      assert StartsWith(line, "-") ==> c == '-';
      assert IsContextLine(line) ==> c == ' ';
    }
  }

  /** At least four space-separated parts means at least three spaces. */
  lemma HasPathIffThreeSpaces(line: string)
    ensures HasPath(line) <==> CountIf(line, x => x == ' ') >= 3
  {
    SplitCount(line, ' ');
  }

  /**
   The path of a header `diff --git a/<p> b/<p>`: its third space-separated
   part with the first two characters (the `a/` prefix) removed, or
   `"unknown"` when the line has fewer than four parts.
   */
  function HeaderPath(line: string): string
  {
    var parts := Split(line, ' ');
    if |parts| >= 4 then Drop(parts[2], 2) else "unknown"
  }

  /** The header path is the third part of the line without its first two characters. */
  lemma HeaderPathSpec(line: string)
    ensures HasPath(line) ==>
              var third := Split(line, ' ')[2];
              && |HeaderPath(line)| == (if |third| <= 2 then 0 else |third| - 2)
              && forall i :: 0 <= i < |HeaderPath(line)| ==> HeaderPath(line)[i] == third[i + 2]
    ensures !HasPath(line) ==> HeaderPath(line) == "unknown"
  {
  }

  /** The first line of a run, or the empty line for an empty run. */
  function Head(run: seq<string>): string
  {
    if |run| == 0 then "" else run[0]
  }

  /** The type of a changed file. */
  datatype FileType = Modified | Added | Deleted

  /**
   The type a file record ends with after its lines: `Modified` unless a
   `new file mode` or `deleted file mode` line occurs, and then the type set
   by the last of them.
   */
  function LastMode(lines: seq<string>): (t: FileType)
  {
    if |lines| == 0 then Modified
    else
      var line := lines[|lines| - 1];
      if IsNewFileMode(line) then Added
      else if IsDeletedFileMode(line) then Deleted
      else LastMode(lines[..|lines| - 1])
  }

  /** `LastMode` is `Added` exactly when a `new file mode` line comes after every `deleted file mode` line. */
  lemma LastModeAdded(lines: seq<string>)
    ensures LastMode(lines) == Added <==>
              exists i :: 0 <= i < |lines| && IsNewFileMode(lines[i])
                          && forall j :: i < j < |lines| ==> !IsDeletedFileMode(lines[j])
  {
    if LastMode(lines) == Added {
      LastModeAddedWitness(lines);
    }
    if exists i :: 0 <= i < |lines| && IsNewFileMode(lines[i])
                   && forall j :: i < j < |lines| ==> !IsDeletedFileMode(lines[j]) {
      var i :| 0 <= i < |lines| && IsNewFileMode(lines[i])
               && forall j :: i < j < |lines| ==> !IsDeletedFileMode(lines[j]);
      LastModeAddedFrom(lines, i);
    }
  }

  lemma {:induction false} LastModeAddedWitness(lines: seq<string>)
    requires LastMode(lines) == Added
    ensures exists i :: 0 <= i < |lines| && IsNewFileMode(lines[i])
                        && forall j :: i < j < |lines| ==> !IsDeletedFileMode(lines[j])
    decreases |lines|
  {
    var n := |lines|;
    var line := lines[n - 1];
    if IsNewFileMode(line) {
      assert IsNewFileMode(lines[n - 1]);
    } else {
      var init := lines[..n - 1];
      LastModeAddedWitness(init);
      var i :| 0 <= i < |init| && IsNewFileMode(init[i])
               && forall j :: i < j < |init| ==> !IsDeletedFileMode(init[j]);
      assert lines[i] == init[i];
      assert forall j :: i < j < n - 1 ==> lines[j] == init[j];
    }
  }

  lemma {:induction false} LastModeAddedFrom(lines: seq<string>, i: nat)
    requires i < |lines| && IsNewFileMode(lines[i])
    requires forall j :: i < j < |lines| ==> !IsDeletedFileMode(lines[j])
    ensures LastMode(lines) == Added
    decreases |lines|
  {
    var n := |lines|;
    if i < n - 1 && !IsNewFileMode(lines[n - 1]) {
      var init := lines[..n - 1];
      assert !IsDeletedFileMode(lines[n - 1]);
      assert forall j :: i <= j < n - 1 ==> init[j] == lines[j];
      LastModeAddedFrom(init, i);
    }
  }

  /** The tag of a stored change line. */
  datatype ChangeTag = AddedLine | RemovedLine | ContextLine

  /** A change line as stored by the parsers: its tag and the line without its first character. */
  datatype Change = Change(tag: ChangeTag, text: string)

  /** The first character of the lines that carry each tag. */
  function Marker(tag: ChangeTag): char
  {
    match tag
    case AddedLine => '+'
    case RemovedLine => '-'
    case ContextLine => ' '
  }

  /**
   The change stored for one line of a hunk: an addition, a deletion or a
   context line, each with its first character cut off; nothing for any
   other line (`+++`, `---`, `@@`, headers, empty lines, ...).
   */
  function ChangeOf(line: string): (c: Option<Change>)
    ensures c.Some? <==> IsAddition(line) || IsDeletion(line) || IsContextLine(line)
    ensures c.Some? ==> line == [Marker(c.value.tag)] + c.value.text
    ensures c.Some? ==> (c.value.tag == AddedLine <==> IsAddition(line))
    ensures c.Some? ==> (c.value.tag == RemovedLine <==> IsDeletion(line))
  {
    if IsAddition(line) then Some(Change(AddedLine, line[1..]))
    else if IsDeletion(line) then Some(Change(RemovedLine, line[1..]))
    else if IsContextLine(line) then Some(Change(ContextLine, line[1..]))
    else None
  }

  /** The changes stored for a run of lines, in order. */
  function ChangesOf(lines: seq<string>): (cs: seq<Change>)
    ensures |cs| <= |lines|
  {
    if |lines| == 0 then []
    else
      var init := ChangesOf(lines[..|lines| - 1]);
      match ChangeOf(lines[|lines| - 1])
      case Some(c) => init + [c]
      case None => init
  }

  predicate IsAddedChange(c: Change) { c.tag == AddedLine }
  predicate IsRemovedChange(c: Change) { c.tag == RemovedLine }

  /** The stored changes hold one `added` entry per addition line and one `removed` entry per deletion line. */
  lemma {:induction false} ChangesOfCounts(lines: seq<string>)
    ensures CountIf(ChangesOf(lines), IsAddedChange) == CountIf(lines, IsAddition)
    ensures CountIf(ChangesOf(lines), IsRemovedChange) == CountIf(lines, IsDeletion)
    decreases |lines|
  {
    if |lines| > 0 {
      var init := lines[..|lines| - 1];
      ChangesOfCounts(init);
      var cs := ChangesOf(init);
      match ChangeOf(lines[|lines| - 1])
      case Some(c) =>
        assert (cs + [c])[..|cs|] == cs;
      case None =>
    }
  }

  /**
   Every stored change comes from a change line of the run: its marker
   followed by its text is a line of the run, and reading that line again
   gives the same change (so it is never a `+++` or `---` line).
   */
  lemma {:induction false} ChangesOfSource(lines: seq<string>)
    ensures forall c :: c in ChangesOf(lines) ==> [Marker(c.tag)] + c.text in lines
    ensures forall c :: c in ChangesOf(lines) ==> ChangeOf([Marker(c.tag)] + c.text) == Some(c)
    decreases |lines|
  {
    if |lines| > 0 {
      var init := lines[..|lines| - 1];
      ChangesOfSource(init);
      assert forall l :: l in init ==> l in lines;
    }
  }
}

=== FILE: diff_summary.dfy ===
/**
 The pull-request diff summary (`get_pull_request_diff`): one record per
 `diff --git` header that has a path, with its path, type and change
 counts, plus diff-wide addition and deletion totals and a large-PR flag.

 `Scan` is the parser's loop: the state after a prefix of the lines. The
 file being filled in is always the last record of the list, because
 `get_pull_request_diff` appends a record as soon as it opens it and then
 updates it in place. `ScanIsPerRun` proves that the records are exactly
 one `RunStat` per run of lines opened by a header with a path.
 */
module DiffSummary {
  import opened Text
  import opened Groups
  import opened DiffLines

  /** A file record: `{'path', 'additions', 'deletions', 'type'}`. */
  datatype FileStat = FileStat(path: string, additions: nat, deletions: nat, fileType: FileType)

  /** The loop state: the records so far and the diff-wide counters. */
  datatype Tally = Tally(files: seq<FileStat>, additions: nat, deletions: nat)

  /** The returned summary. */
  datatype Summary = Summary(
    totalFiles: nat,
    totalAdditions: nat,
    totalDeletions: nat,
    files: seq<FileStat>,
    diffSize: nat,
    largePr: bool)

  /** A diff longer than this many characters is a large PR. */
  const LargeDiffSize: nat := 100000

  /** The effect of one non-header line on the current file record. */
  function ApplyLine(f: FileStat, line: string): FileStat
  {
    if IsNewFileMode(line) then f.(fileType := Added)
    else if IsDeletedFileMode(line) then f.(fileType := Deleted)
    else if IsAddition(line) then f.(additions := f.additions + 1)
    else if IsDeletion(line) then f.(deletions := f.deletions + 1)
    else f
  }

  /** Apply a line to the current (last) record, if any. */
  function UpdateCurrent(files: seq<FileStat>, line: string): (r: seq<FileStat>)
    ensures |r| == |files|
  {
    if |files| == 0 then files
    else files[..|files| - 1] + [ApplyLine(files[|files| - 1], line)]
  }

  /**
   One iteration of the loop. A header with a path opens one new record, a
   header with fewer than four parts changes nothing, and each addition or
   deletion line adds one to its global counter. Only the current (last)
   record is ever updated; the records before it stay as they are.
   */
  function Step(t: Tally, line: string): (r: Tally)
    ensures |r.files| == |t.files| + (if IsPathHeader(line) then 1 else 0)
    ensures r.additions == t.additions + (if IsAddition(line) then 1 else 0)
    ensures r.deletions == t.deletions + (if IsDeletion(line) then 1 else 0)
    ensures |t.files| > 0 ==> r.files[..|t.files| - 1] == t.files[..|t.files| - 1]
    ensures IsHeader(line) && !HasPath(line) ==> r == t
    ensures IsPathHeader(line) ==>
              && r.files[..|t.files|] == t.files
              && r.files[|t.files|] == FileStat(HeaderPath(line), 0, 0, Modified)
    ensures !IsHeader(line) && |t.files| > 0 ==> r.files[|t.files| - 1].path == t.files[|t.files| - 1].path
  {
    KindsExclusive(line);
    if IsHeader(line) then
      if HasPath(line) then t.(files := t.files + [FileStat(HeaderPath(line), 0, 0, Modified)])
      else t
    else
      Tally(UpdateCurrent(t.files, line),
            t.additions + (if IsAddition(line) then 1 else 0),
            t.deletions + (if IsDeletion(line) then 1 else 0))
  }

  /**
   The state after the loop has seen `lines`. It holds one record per header
   with a path, and the global counters count every addition and deletion
   line, whether or not a record is open.
   */
  function Scan(lines: seq<string>): (t: Tally)
    ensures |t.files| == CountIf(lines, IsPathHeader)
    ensures t.additions == CountIf(lines, IsAddition)
    ensures t.deletions == CountIf(lines, IsDeletion)
  {
    if |lines| == 0 then Tally([], 0, 0)
    else
      var line := lines[|lines| - 1];
      KindsExclusive(line);
      Step(Scan(lines[..|lines| - 1]), line)
  }

  /** `get_pull_request_diff` on the response text. */
  function Summarize(diffText: string): (s: Summary)
    ensures s.totalFiles == |s.files| == CountIf(Lines(diffText), IsPathHeader)
    ensures s.totalAdditions == CountIf(Lines(diffText), IsAddition)
    ensures s.totalDeletions == CountIf(Lines(diffText), IsDeletion)
    ensures s.diffSize == |diffText|
    ensures s.largePr <==> |diffText| > 100000
  {
    var t := Scan(Lines(diffText));
    Summary(|t.files|, t.additions, t.deletions, t.files, |diffText|, |diffText| > LargeDiffSize)
  }

  // ----- Reference: one record per run -----

  /** The record a run of lines (opened by its header) describes, computed from the run as a whole. */
  function RunStat(run: seq<string>): FileStat
  {
    FileStat(HeaderPath(Head(run)), CountIf(run, IsAddition), CountIf(run, IsDeletion), LastMode(run))
  }

  function RunStats(runs: seq<seq<string>>): (fs: seq<FileStat>)
    ensures |fs| == |runs|
  {
    if |runs| == 0 then []
    else RunStats(runs[..|runs| - 1]) + [RunStat(runs[|runs| - 1])]
  }

  /** Sum of the per-file addition counts. */
  function SumAdditions(files: seq<FileStat>): nat
  {
    if |files| == 0 then 0 else SumAdditions(files[..|files| - 1]) + files[|files| - 1].additions
  }

  /** Sum of the per-file deletion counts. */
  function SumDeletions(files: seq<FileStat>): nat
  {
    if |files| == 0 then 0 else SumDeletions(files[..|files| - 1]) + files[|files| - 1].deletions
  }

  lemma RunStatsAppend(runs: seq<seq<string>>, run: seq<string>)
    ensures RunStats(runs + [run]) == RunStats(runs) + [RunStat(run)]
  {
    assert (runs + [run])[..|runs|] == runs;
  }

  /** A run with one more line has the record updated by that line. */
  lemma RunStatAppend(run: seq<string>, line: string)
    requires |run| >= 1
    ensures RunStat(run + [line]) == ApplyLine(RunStat(run), line)
  {
    assert (run + [line])[..|run|] == run;
    KindsExclusive(line);
  }

  /** `Scan` of one more line is one more `Step`. */
  lemma ScanAppend(lines: seq<string>, line: string)
    ensures Scan(lines + [line]) == Step(Scan(lines), line)
  {
    assert (lines + [line])[..|lines|] == lines;
  }

  lemma ScanStep(lines: seq<string>, line: string)
    requires Scan(lines).files == RunStats(Group(lines, IsPathHeader))
    ensures Scan(lines + [line]).files == RunStats(Group(lines + [line], IsPathHeader))
  {
    var t := Scan(lines);
    var gs0 := Group(lines, IsPathHeader);
    ScanAppend(lines, line);
    GroupAppend(lines, line, IsPathHeader);
    if IsPathHeader(line) {
      RunStatsAppend(gs0, [line]);
      RunStatHeader(line);
      assert Step(t, line).files == t.files + [RunStat([line])];
    } else if |gs0| > 0 {
      GroupSpec(lines, IsPathHeader);
      ScanStepInRun(t.files, gs0, line);
      if IsHeader(line) {
        UpdateCurrentHeader(t.files, line);
      }
    } else {
      assert Step(t, line).files == [];
    }
  }

  /** A header without a path leaves the current record as it is. */
  lemma UpdateCurrentHeader(files: seq<FileStat>, line: string)
    requires IsHeader(line)
    ensures UpdateCurrent(files, line) == files
  {
    KindsExclusive(line);
    if |files| > 0 {
      FrontLast(files);
    }
  }

  /** A header with a path alone is a record with that path, no changes and type `Modified`. */
  lemma RunStatHeader(line: string)
    requires IsPathHeader(line)
    ensures RunStat([line]) == FileStat(HeaderPath(line), 0, 0, Modified)
  {
    KindsExclusive(line);
    assert [line][..0] == [];
    assert Head([line]) == line;
    assert CountIf([line], IsAddition) == 0;
    assert CountIf([line], IsDeletion) == 0;
    assert LastMode([line]) == Modified;
  }

  lemma ScanStepInRun(files: seq<FileStat>, gs0: seq<seq<string>>, line: string)
    requires |gs0| > 0 && |gs0[|gs0| - 1]| > 0
    requires files == RunStats(gs0)
    ensures UpdateCurrent(files, line) == RunStats(gs0[..|gs0| - 1] + [gs0[|gs0| - 1] + [line]])
  {
    var k := |gs0|;
    var run := gs0[k - 1];
    var pre := gs0[..k - 1];
    FrontLast(gs0);
    RunStatsAppend(pre, run);
    UpdateCurrentLast(RunStats(pre), RunStat(run), line);
    RunStatAppend(run, line);
    RunStatsAppend(pre, run + [line]);
  }

  lemma UpdateCurrentLast(fs: seq<FileStat>, f: FileStat, line: string)
    ensures UpdateCurrent(fs + [f], line) == fs + [ApplyLine(f, line)]
  {
    assert (fs + [f])[..|fs|] == fs;
  }

  /** The records are exactly one `RunStat` per run opened by a header with a path. */
  lemma {:induction false} ScanIsPerRun(lines: seq<string>)
    ensures Scan(lines).files == RunStats(Group(lines, IsPathHeader))
    decreases |lines|
  {
    if |lines| > 0 {
      var init := lines[..|lines| - 1];
      ScanIsPerRun(init);
      ScanStep(init, lines[|lines| - 1]);
      FrontLast(lines);
    }
  }

  /** The change lines of all runs are those counted in the records. */
  lemma {:induction false} RunStatsCount(runs: seq<seq<string>>)
    ensures CountIf(Flatten(runs), IsAddition) == SumAdditions(RunStats(runs))
    ensures CountIf(Flatten(runs), IsDeletion) == SumDeletions(RunStats(runs))
    decreases |runs|
  {
    if |runs| > 0 {
      var init := runs[..|runs| - 1];
      var run := runs[|runs| - 1];
      RunStatsCount(init);
      FrontLast(runs);
      FlattenAppend(init, run);
      CountIfAppend(Flatten(init), run, IsAddition);
      CountIfAppend(Flatten(init), run, IsDeletion);
      SumsAppend(RunStats(init), RunStat(run));
    }
  }

  lemma SumsAppend(fs: seq<FileStat>, f: FileStat)
    ensures SumAdditions(fs + [f]) == SumAdditions(fs) + f.additions
    ensures SumDeletions(fs + [f]) == SumDeletions(fs) + f.deletions
  {
    AppendFront(fs, [f]);
  }

  /**
   The diff-wide totals are the per-file sums plus the change lines that
   come before the first header with a path; so they are never smaller, and
   equal exactly when no change line precedes that header.
   */
  lemma SummaryTotals(diffText: string)
    ensures var s := Summarize(diffText);
            var pre := Preamble(Lines(diffText), IsPathHeader);
            && s.totalAdditions == SumAdditions(s.files) + CountIf(pre, IsAddition)
            && s.totalDeletions == SumDeletions(s.files) + CountIf(pre, IsDeletion)
            && s.totalAdditions >= SumAdditions(s.files)
            && s.totalDeletions >= SumDeletions(s.files)
            && (s.totalAdditions == SumAdditions(s.files) <==> forall i :: 0 <= i < |pre| ==> !IsAddition(pre[i]))
            && (s.totalDeletions == SumDeletions(s.files) <==> forall i :: 0 <= i < |pre| ==> !IsDeletion(pre[i]))
  {
    var lines := Lines(diffText);
    var pre := Preamble(lines, IsPathHeader);
    var runs := Group(lines, IsPathHeader);
    Partition(lines, IsPathHeader);
    ScanIsPerRun(lines);
    RunStatsCount(runs);
    CountIfAppend(pre, Flatten(runs), IsAddition);
    CountIfAppend(pre, Flatten(runs), IsDeletion);
    CountIfZero(pre, IsAddition);
    CountIfZero(pre, IsDeletion);
  }

  /**
   Each record belongs to the `i`-th header with a path: its path is taken
   from that header, its counts are those of the lines up to the next such
   header, and its type is set by the last mode line among them.
   */
  lemma SummaryFiles(diffText: string)
    ensures var s := Summarize(diffText);
            var runs := Group(Lines(diffText), IsPathHeader);
            && |s.files| == |runs|
            && forall i :: 0 <= i < |runs| ==>
                 && |runs[i]| >= 1 && IsPathHeader(runs[i][0])
                 && s.files[i].path == HeaderPath(runs[i][0])
                 && s.files[i].additions == CountIf(runs[i], IsAddition)
                 && s.files[i].deletions == CountIf(runs[i], IsDeletion)
                 && s.files[i].fileType == LastMode(runs[i])
  {
    var lines := Lines(diffText);
    var fs := Summarize(diffText).files;
    assert fs == RunStats(Group(lines, IsPathHeader)) by {
      ScanIsPerRun(lines);
    }
    RecordFields(fs, lines);
  }

  /** Records computed run by run carry the fields of their runs. */
  lemma RecordFields(fs: seq<FileStat>, lines: seq<string>)
    requires fs == RunStats(Group(lines, IsPathHeader))
    ensures var runs := Group(lines, IsPathHeader);
            && |fs| == |runs|
            && forall i :: 0 <= i < |runs| ==>
                 && |runs[i]| >= 1 && IsPathHeader(runs[i][0])
                 && fs[i].path == HeaderPath(runs[i][0])
                 && fs[i].additions == CountIf(runs[i], IsAddition)
                 && fs[i].deletions == CountIf(runs[i], IsDeletion)
                 && fs[i].fileType == LastMode(runs[i])
  {
    var runs := Group(lines, IsPathHeader);
    assert forall k :: 0 <= k < |runs| ==> |runs[k]| >= 1 && IsPathHeader(runs[k][0]) by {
      GroupSpec(lines, IsPathHeader);
    }
    RunFields(fs, runs);
  }

  /** The per-index form of `fs == RunStats(runs)`. */
  lemma RunFields(fs: seq<FileStat>, runs: seq<seq<string>>)
    requires fs == RunStats(runs)
    requires forall k :: 0 <= k < |runs| ==> |runs[k]| >= 1
    ensures |fs| == |runs|
    ensures forall i :: 0 <= i < |runs| ==>
              && fs[i].path == HeaderPath(runs[i][0])
              && fs[i].additions == CountIf(runs[i], IsAddition)
              && fs[i].deletions == CountIf(runs[i], IsDeletion)
              && fs[i].fileType == LastMode(runs[i])
  {
    RunStatsIndex(runs);
  }

  lemma {:induction false} RunStatsIndex(runs: seq<seq<string>>)
    ensures forall i :: 0 <= i < |runs| ==> RunStats(runs)[i] == RunStat(runs[i])
    decreases |runs|
  {
    if |runs| > 0 {
      RunStatsIndex(runs[..|runs| - 1]);
    }
  }
}

=== FILE: formats.dfy ===
/**
 Field conventions shared by the reshaping code of `bitbucket_api_test.py`:
 commit hashes shown as their first eight characters, and millisecond
 timestamps turned into whole seconds.
 */
module Formats {
  import opened Wrappers
  import opened Text

  /** Length of a shortened commit hash. */
  const HashLength: nat := 8

  /** `h[:8]`: the first eight characters of a hash, or all of a shorter one. */
  function ShortHash(h: string): (r: string)
    ensures |r| == if |h| < HashLength then |h| else HashLength
    ensures StartsWith(h, r)
  {
    Take(h, HashLength)
  }

  /**
   `t // 1000 if t else 0`: milliseconds to whole seconds, rounded down (also
   for negative values), and 0 when the timestamp is missing or zero.
   */
  function EpochSeconds(millis: Option<int>): (r: int)
    ensures millis.None? || millis.value == 0 ==> r == 0
    ensures millis.Some? && millis.value != 0 ==> r * 1000 <= millis.value < r * 1000 + 1000
  {
    match millis
    case None => 0
    case Some(t) => if t == 0 then 0 else t / 1000
  }

  /** Rounding down: a timestamp of a negative number of milliseconds gives a negative number of seconds. */
  lemma EpochSecondsNegative(t: int)
    requires t < 0
    ensures EpochSeconds(Some(t)) < 0
  {
  }
}

=== FILE: groups.dfy ===
/**
 Counting and grouping a sequence of lines.

 `Group(xs, isStart)` cuts `xs` into the runs that each begin with a line
 satisfying `isStart` and extend up to (not including) the next such line;
 `Preamble(xs, isStart)` is what comes before the first of them. Every diff
 parser in this model is proved equal to a function of these runs: a file
 record is a run opened by a `diff --git` line, a hunk is a run opened by an
 `@@` line.
 */
module Groups {

  /** Number of elements of `xs` satisfying `p`. */
  function CountIf<T>(xs: seq<T>, p: T -> bool): (n: nat)
    ensures n <= |xs|
  {
    if |xs| == 0 then 0
    else CountIf(xs[..|xs| - 1], p) + (if p(xs[|xs| - 1]) then 1 else 0)
  }

  /** The elements of `xs` satisfying `p`, in order. */
  function Filter<T>(xs: seq<T>, p: T -> bool): (r: seq<T>)
    ensures |r| == CountIf(xs, p)
    ensures forall i :: 0 <= i < |r| ==> p(r[i]) && r[i] in xs
  {
    if |xs| == 0 then []
    else
      var init := Filter(xs[..|xs| - 1], p);
      var x := xs[|xs| - 1];
      if p(x) then init + [x] else init
  }

  /** The concatenation of all runs. */
  function Flatten<T>(gs: seq<seq<T>>): seq<T>
  {
    if |gs| == 0 then [] else Flatten(gs[..|gs| - 1]) + gs[|gs| - 1]
  }

  /** The runs of `xs`: one per element satisfying `isStart`, which opens it. */
  function Group<T>(xs: seq<T>, isStart: T -> bool): (gs: seq<seq<T>>)
    ensures |gs| == CountIf(xs, isStart)
  {
    if |xs| == 0 then []
    else
      var gs0 := Group(xs[..|xs| - 1], isStart);
      var x := xs[|xs| - 1];
      if isStart(x) then gs0 + [[x]]
      else if |gs0| == 0 then []
      else gs0[..|gs0| - 1] + [gs0[|gs0| - 1] + [x]]
  }

  /** Each run is non-empty, begins with a start element and holds no other. */
  lemma {:induction false} GroupSpec<T>(xs: seq<T>, isStart: T -> bool)
    ensures forall k :: 0 <= k < |Group(xs, isStart)| ==> |Group(xs, isStart)[k]| >= 1
    ensures forall k :: 0 <= k < |Group(xs, isStart)| ==> isStart(Group(xs, isStart)[k][0])
    ensures forall k, j :: 0 <= k < |Group(xs, isStart)| && 1 <= j < |Group(xs, isStart)[k]|
                           ==> !isStart(Group(xs, isStart)[k][j])
    decreases |xs|
  {
    if |xs| > 0 {
      var init := xs[..|xs| - 1];
      var x := xs[|xs| - 1];
      GroupSpec(init, isStart);
      var gs0 := Group(init, isStart);
      var gs := Group(xs, isStart);
      if isStart(x) {
        assert gs == gs0 + [[x]];
        assert forall k :: 0 <= k < |gs0| ==> gs[k] == gs0[k];
      } else if |gs0| > 0 {
        var k0 := |gs0| - 1;
        assert gs == gs0[..k0] + [gs0[k0] + [x]];
        forall k | 0 <= k < |gs|
          ensures |gs[k]| >= 1 && isStart(gs[k][0])
          ensures forall j :: 1 <= j < |gs[k]| ==> !isStart(gs[k][j])
        {
          if k < k0 {
            assert gs[k] == gs0[k];
          } else {
            assert gs[k] == gs0[k0] + [x];
            assert forall j :: 1 <= j < |gs[k]| ==> gs[k][j] == if j < |gs0[k0]| then gs0[k0][j] else x;
          }
        }
      }
    }
  }

  /** The longest prefix of `xs` holding no element that satisfies `isStart`. */
  function Preamble<T>(xs: seq<T>, isStart: T -> bool): (pre: seq<T>)
    ensures |pre| <= |xs|
  {
    if |xs| == 0 || isStart(xs[0]) then []
    else [xs[0]] + Preamble(xs[1..], isStart)
  }

  /** The preamble is a prefix free of starts, followed by a start or by nothing. */
  lemma {:induction false} PreambleSpec<T>(xs: seq<T>, isStart: T -> bool)
    ensures var pre := Preamble(xs, isStart);
            && pre == xs[..|pre|]
            && (forall i :: 0 <= i < |pre| ==> !isStart(pre[i]))
            && (|pre| < |xs| ==> isStart(xs[|pre|]))
    decreases |xs|
  {
    if |xs| > 0 && !isStart(xs[0]) {
      PreambleSpec(xs[1..], isStart);
    }
  }

  lemma {:induction false} CountIfAppend<T>(xs: seq<T>, ys: seq<T>, p: T -> bool)
    ensures CountIf(xs + ys, p) == CountIf(xs, p) + CountIf(ys, p)
    decreases |ys|
  {
    if |ys| == 0 {
      assert xs + ys == xs;
    } else {
      var ys0 := ys[..|ys| - 1];
      assert (xs + ys)[..|xs + ys| - 1] == xs + ys0;
      assert (xs + ys)[|xs + ys| - 1] == ys[|ys| - 1];
      CountIfAppend(xs, ys0, p);
    }
  }

  /** No element satisfying `p` means a count of zero, and conversely. */
  lemma {:induction false} CountIfZero<T>(xs: seq<T>, p: T -> bool)
    ensures CountIf(xs, p) == 0 <==> forall i :: 0 <= i < |xs| ==> !p(xs[i])
    decreases |xs|
  {
    if |xs| > 0 {
      var init := xs[..|xs| - 1];
      CountIfZero(init, p);
      assert forall i :: 0 <= i < |init| ==> init[i] == xs[i];
    }
  }

  /** If `xs` holds no run, every element of it belongs to the preamble. */
  lemma PreambleWithoutStart<T>(xs: seq<T>, isStart: T -> bool)
    requires CountIf(xs, isStart) == 0
    ensures Preamble(xs, isStart) == xs
  {
    CountIfZero(xs, isStart);
    PreambleSpec(xs, isStart);
  }

  /** Appending to a sequence that already holds a run keeps its preamble. */
  lemma {:induction false} PreambleStable<T>(xs: seq<T>, x: T, isStart: T -> bool)
    requires Preamble(xs, isStart) != xs
    ensures Preamble(xs + [x], isStart) == Preamble(xs, isStart)
    decreases |xs|
  {
    assert |xs| > 0;
    if !isStart(xs[0]) {
      assert (xs + [x])[1..] == xs[1..] + [x];
      PreambleStable(xs[1..], x, isStart);
    }
  }

  /** Appending a non-start element to a run-free sequence grows its preamble. */
  lemma {:induction false} PreambleGrows<T>(xs: seq<T>, x: T, isStart: T -> bool)
    requires Preamble(xs, isStart) == xs
    requires !isStart(x)
    ensures Preamble(xs + [x], isStart) == xs + [x]
    decreases |xs|
  {
    if |xs| > 0 {
      assert !isStart(xs[0]);
      assert Preamble(xs[1..], isStart) == xs[1..];
      assert (xs + [x])[1..] == xs[1..] + [x];
      PreambleGrows(xs[1..], x, isStart);
    }
  }

  /** Appending a start element to a run-free sequence ends its preamble there. */
  lemma {:induction false} PreambleStops<T>(xs: seq<T>, x: T, isStart: T -> bool)
    requires Preamble(xs, isStart) == xs
    requires isStart(x)
    ensures Preamble(xs + [x], isStart) == xs
    decreases |xs|
  {
    if |xs| > 0 {
      assert !isStart(xs[0]);
      assert Preamble(xs[1..], isStart) == xs[1..];
      assert (xs + [x])[1..] == xs[1..] + [x];
      PreambleStops(xs[1..], x, isStart);
    }
  }

  lemma AppendAssoc<T>(a: seq<T>, b: seq<T>, c: seq<T>)
    ensures a + (b + c) == (a + b) + c
  {
  }

  /** `Filter` of a sequence with one more element, unfolded once. */
  lemma FilterAppend<T>(xs: seq<T>, x: T, p: T -> bool)
    ensures Filter(xs + [x], p) == if p(x) then Filter(xs, p) + [x] else Filter(xs, p)
  {
    assert (xs + [x])[..|xs|] == xs;
  }

  lemma AppendFront<T>(xs: seq<T>, ys: seq<T>)
    ensures (xs + ys)[..|xs|] == xs
  {
  }

  /** The last run is not empty. */
  lemma LastRunNonEmpty<T>(xs: seq<T>, isStart: T -> bool)
    requires |Group(xs, isStart)| > 0
    ensures |Group(xs, isStart)[|Group(xs, isStart)| - 1]| >= 1
  {
    GroupSpec(xs, isStart);
  }

  /** Everything `Filter` keeps satisfies `p` and comes from `xs`. */
  lemma FilterMember<T>(xs: seq<T>, p: T -> bool)
    ensures forall x :: x in Filter(xs, p) ==> p(x) && x in xs
  {
    var r := Filter(xs, p);
    forall x | x in r
      ensures p(x) && x in xs
    {
      var i :| 0 <= i < |r| && r[i] == x;
    }
  }

  /** A non-empty sequence is its front followed by its last element. */
  lemma FrontLast<T>(xs: seq<T>)
    requires |xs| >= 1
    ensures xs == xs[..|xs| - 1] + [xs[|xs| - 1]]
  {
  }

  /** Extending the last run leaves the others as they are. */
  lemma ExtendLastParts<T>(gs: seq<seq<T>>, x: T)
    requires |gs| >= 1
    ensures var g := gs[..|gs| - 1] + [gs[|gs| - 1] + [x]];
            && |g| == |gs|
            && g[..|gs| - 1] == gs[..|gs| - 1]
            && g[|gs| - 1] == gs[|gs| - 1] + [x]
  {
  }

  /** `Group` of a sequence with one more element, unfolded once. */
  lemma GroupAppend<T>(xs: seq<T>, x: T, isStart: T -> bool)
    ensures var gs0 := Group(xs, isStart);
            Group(xs + [x], isStart)
            == if isStart(x) then gs0 + [[x]]
               else if |gs0| == 0 then []
               else gs0[..|gs0| - 1] + [gs0[|gs0| - 1] + [x]]
  {
    assert (xs + [x])[..|xs|] == xs;
  }

  lemma FlattenAppend<T>(gs: seq<seq<T>>, g: seq<T>)
    ensures Flatten(gs + [g]) == Flatten(gs) + g
  {
    assert (gs + [g])[..|gs|] == gs;
  }

  lemma FlattenExtendLast<T>(gs: seq<seq<T>>, x: T)
    requires |gs| >= 1
    ensures Flatten(gs[..|gs| - 1] + [gs[|gs| - 1] + [x]]) == Flatten(gs) + [x]
  {
    var k := |gs|;
    FlattenAppend(gs[..k - 1], gs[k - 1] + [x]);
    FrontLast(gs);
    FlattenAppend(gs[..k - 1], gs[k - 1]);
    AppendAssoc(Flatten(gs[..k - 1]), gs[k - 1], [x]);
  }

  /** A sequence is its preamble followed by its runs, in order. */
  lemma {:induction false} Partition<T>(xs: seq<T>, isStart: T -> bool)
    ensures Preamble(xs, isStart) + Flatten(Group(xs, isStart)) == xs
    decreases |xs|
  {
    if |xs| > 0 {
      var init := xs[..|xs| - 1];
      var x := xs[|xs| - 1];
      assert xs == init + [x];
      Partition(init, isStart);
      PartitionStep(init, x, isStart);
    }
  }

  lemma PartitionStep<T>(init: seq<T>, x: T, isStart: T -> bool)
    requires Preamble(init, isStart) + Flatten(Group(init, isStart)) == init
    ensures Preamble(init + [x], isStart) + Flatten(Group(init + [x], isStart)) == init + [x]
  {
    var gs0 := Group(init, isStart);
    if |gs0| == 0 {
      assert Flatten(gs0) == [];
      if isStart(x) {
        PartitionFirstStart(init, x, isStart);
      } else {
        PartitionStillPreamble(init, x, isStart);
      }
    } else {
      PartitionStepInRun(init, x, isStart);
    }
  }

  lemma PartitionFirstStart<T>(init: seq<T>, x: T, isStart: T -> bool)
    requires |Group(init, isStart)| == 0 && Preamble(init, isStart) == init
    requires isStart(x)
    ensures Preamble(init + [x], isStart) + Flatten(Group(init + [x], isStart)) == init + [x]
  {
    GroupAppend(init, x, isStart);
    PreambleStops(init, x, isStart);
    FlattenAppend([], [x]);
    assert [] + [[x]] == [[x]];
  }

  lemma PartitionStillPreamble<T>(init: seq<T>, x: T, isStart: T -> bool)
    requires |Group(init, isStart)| == 0 && Preamble(init, isStart) == init
    requires !isStart(x)
    ensures Preamble(init + [x], isStart) + Flatten(Group(init + [x], isStart)) == init + [x]
  {
    GroupAppend(init, x, isStart);
    PreambleGrows(init, x, isStart);
    assert Flatten<T>([]) == [];
  }

  /** Once a run has started, the preamble is a proper prefix. */
  lemma PreambleShortWithRun<T>(xs: seq<T>, isStart: T -> bool)
    requires |Group(xs, isStart)| > 0
    requires Preamble(xs, isStart) + Flatten(Group(xs, isStart)) == xs
    ensures Preamble(xs, isStart) != xs
  {
    var gs := Group(xs, isStart);
    var k := |gs|;
    FlattenAppend(gs[..k - 1], gs[k - 1]);
    assert gs[..k - 1] + [gs[k - 1]] == gs;
    assert |Flatten(gs)| >= 1;
  }

  lemma PartitionStepInRun<T>(init: seq<T>, x: T, isStart: T -> bool)
    requires |Group(init, isStart)| > 0
    requires Preamble(init, isStart) + Flatten(Group(init, isStart)) == init
    ensures Preamble(init + [x], isStart) + Flatten(Group(init + [x], isStart)) == init + [x]
  {
    var pre := Preamble(init, isStart);
    var fl := Flatten(Group(init, isStart));
    PreambleShortWithRun(init, isStart);
    PreambleStable(init, x, isStart);
    FlattenGroupAppend(init, x, isStart);
    AppendAssoc(pre, fl, [x]);
  }

  /** Once a run has started, every further element lands in the runs. */
  lemma FlattenGroupAppend<T>(init: seq<T>, x: T, isStart: T -> bool)
    requires |Group(init, isStart)| > 0
    ensures Flatten(Group(init + [x], isStart)) == Flatten(Group(init, isStart)) + [x]
  {
    var gs0 := Group(init, isStart);
    GroupAppend(init, x, isStart);
    if isStart(x) {
      FlattenAppend(gs0, [x]);
    } else {
      FlattenExtendLast(gs0, x);
    }
  }

  /** `a + x + b` is `a + b + x` when `x` or `b` is empty. */
  lemma MiddleOrLast<T>(a: seq<T>, x: seq<T>, b: seq<T>)
    requires x == [] || b == []
    ensures a + x + b == (a + b) + x
  {
  }

  /** An element of `xs` that satisfies `p` is kept by `Filter`. */
  lemma {:induction false} FilterContains<T>(xs: seq<T>, x: T, p: T -> bool)
    requires x in xs && p(x)
    ensures x in Filter(xs, p)
    decreases |xs|
  {
    var init := xs[..|xs| - 1];
    if xs[|xs| - 1] != x {
      FrontLast(xs);
      assert x in init;
      FilterContains(init, x, p);
    }
  }
}

=== FILE: guidance.dfy ===
/**
 The review guidance of `get_pr_summary_for_llm`: the strategy label, the
 focus areas it implies and the attention files picked from a code review.
 A focused review names those of its first five files that have more than
 20 changed lines; any other review names every file with more than 5, and
 a missing review names none.
 */
module Guidance {
  import opened Wrappers
  import opened Text
  import opened Groups
  import opened CodeReview

  /** A focused review names files with more changed lines than this. */
  const FocusedAttention: nat := 20
  /** A comprehensive review names files with more changed lines than this. */
  const ComprehensiveAttention: nat := 5
  /** A focused review only looks at this many files. */
  const FocusedWindow: nat := 5

  /** `review_strategy` of the guidance. */
  datatype Approach = FocusedApproach | Comprehensive

  /** `llm_guidance`: the strategy, the focus areas it implies and the files needing attention. */
  datatype LlmGuidance = LlmGuidance(approach: Approach, focusAreas: seq<string>, attentionFiles: seq<string>)

  /** The focus areas of a focused review. */
  const FocusedAreas: seq<string> := ["major_modifications", "key_files"]
  /** The focus areas of a comprehensive review. */
  const ComprehensiveAreas: seq<string> := ["line_level_changes", "detailed_review", "code_quality"]

  function Changed(f: ReviewFile): nat { f.totalAdditions + f.totalDeletions }

  /** The paths of the files with more than `limit` changed lines, in order. */
  function PathsOver(files: seq<ReviewFile>, limit: nat): (ps: seq<string>)
    ensures |ps| <= |files|
  {
    if |files| == 0 then []
    else
      var f := files[|files| - 1];
      PathsOver(files[..|files| - 1], limit) + (if Changed(f) > limit then [f.path] else [])
  }

  /** A path is listed exactly when some file with that path has more than `limit` changed lines. */
  lemma {:induction false} PathsOverSpec(files: seq<ReviewFile>, limit: nat, p: string)
    ensures p in PathsOver(files, limit) <==> exists f :: f in files && f.path == p && Changed(f) > limit
    decreases |files|
  {
    if |files| > 0 {
      var init := files[..|files| - 1];
      var f := files[|files| - 1];
      PathsOverSpec(init, limit, p);
      FrontLast(files);
      assert forall g :: g in files <==> g in init || g == f;
    }
  }

  /** The guidance for the result of `get_pr_for_code_review`, `None` when that call failed. */
  function GuidanceOf(review: Option<Review>): (g: LlmGuidance)
    ensures g.approach == FocusedApproach <==> review.Some? && review.value.strategy == Focused
    ensures review.None? ==> g.attentionFiles == []
    ensures g.approach == FocusedApproach ==> |g.attentionFiles| <= FocusedWindow
    ensures review.Some? ==> |g.attentionFiles| <= |review.value.files|
    ensures g.focusAreas == if g.approach == FocusedApproach then FocusedAreas else ComprehensiveAreas
  {
    match review
    case None => LlmGuidance(Comprehensive, ComprehensiveAreas, [])
    case Some(r) =>
      if r.strategy == Focused then
        LlmGuidance(FocusedApproach, FocusedAreas, PathsOver(Take(r.files, FocusedWindow), FocusedAttention))
      else LlmGuidance(Comprehensive, ComprehensiveAreas, PathsOver(r.files, ComprehensiveAttention))
  }

  /**
   For a focused review of a diff, the attention files are exactly the paths
   of its returned files with more than 20 changed lines: the review already
   holds at most five files, so the five-file window drops none.
   */
  lemma FocusedAttentionFiles(diffText: string, flushOnHeader: bool, p: string)
    requires CodeReviewOf(diffText, flushOnHeader).strategy == Focused
    ensures var r := CodeReviewOf(diffText, flushOnHeader);
            p in GuidanceOf(Some(r)).attentionFiles <==>
              exists f :: f in r.files && f.path == p && Changed(f) > FocusedAttention
  {
    var r := CodeReviewOf(diffText, flushOnHeader);
    assert Take(r.files, FocusedWindow) == r.files;
    PathsOverSpec(r.files, FocusedAttention, p);
  }

  /** For any other review, the attention files are the paths of its files with more than 5 changed lines. */
  lemma ComprehensiveAttentionFiles(r: Review, p: string)
    requires r.strategy == Detailed
    ensures p in GuidanceOf(Some(r)).attentionFiles <==>
              exists f :: f in r.files && f.path == p && Changed(f) > ComprehensiveAttention
  {
    PathsOverSpec(r.files, ComprehensiveAttention, p);
  }
}

=== FILE: text.dfy ===
/**
 Python string operations the diff and comment summarisers rely on:
 `startswith`, slicing `s[:n]` and `s[n:]`, `split(sep)` with an explicit
 one-character separator, and `strip()` with no argument.
 Strings are sequences of code points.
 */
module Text {
  import opened Groups

  /** `s.startswith(prefix)` */
  predicate StartsWith(s: string, prefix: string) {
    |prefix| <= |s| && s[..|prefix|] == prefix
  }

  /** `s[:n]` for a non-negative `n`: the first `n` elements, or all of `s`. */
  function Take<T>(s: seq<T>, n: nat): (r: seq<T>)
    ensures |r| <= n && |r| <= |s|
    ensures |s| <= n ==> r == s
    ensures n < |s| ==> |r| == n
    ensures r == s[..|r|]
  {
    if |s| <= n then s else s[..n]
  }

  /** `s[n:]` for a non-negative `n`: everything after the first `n` elements. */
  function Drop<T>(s: seq<T>, n: nat): (r: seq<T>)
    ensures |s| <= n ==> r == []
    ensures n < |s| ==> |r| == |s| - n
    ensures n < |s| ==> forall i :: 0 <= i < |r| ==> r[i] == s[n + i]
  {
    if |s| <= n then [] else s[n..]
  }

  /** `sep.join(parts)` for a one-character separator. */
  function Join(parts: seq<string>, sep: char): string
    requires |parts| >= 1
  {
    if |parts| == 1 then parts[0]
    else Join(parts[..|parts| - 1], sep) + [sep] + parts[|parts| - 1]
  }

  /**
   `s.split(sep)` for a one-character separator: the maximal pieces between
   separators, including empty ones; `"".split(sep) == [""]`.
   */
  function Split(s: string, sep: char): (parts: seq<string>)
    ensures |parts| >= 1
  {
    if |s| == 0 then [""]
    else
      var init := Split(s[..|s| - 1], sep);
      var c := s[|s| - 1];
      if c == sep then init + [""]
      else init[..|init| - 1] + [init[|init| - 1] + [c]]
  }

  /** No piece of a split holds the separator. */
  lemma {:induction false} SplitNoSeparator(s: string, sep: char)
    ensures forall i :: 0 <= i < |Split(s, sep)| ==> sep !in Split(s, sep)[i]
    decreases |s|
  {
    if |s| > 0 {
      var init := Split(s[..|s| - 1], sep);
      SplitNoSeparator(s[..|s| - 1], sep);
      var c := s[|s| - 1];
      if c != sep {
        var last := init[|init| - 1] + [c];
        assert sep !in last;
      }
    }
  }

  /** Extending the last piece extends the joined text by the same characters. */
  lemma JoinExtendLast(parts: seq<string>, x: string, sep: char)
    requires |parts| >= 1
    ensures Join(parts[..|parts| - 1] + [parts[|parts| - 1] + x], sep) == Join(parts, sep) + x
  {
    var n := |parts|;
    var q := parts[..n - 1] + [parts[n - 1] + x];
    if n > 1 {
      assert q[..n - 1] == parts[..n - 1];
    }
  }

  /** Joining the pieces of a split with the separator gives back the text. */
  lemma {:induction false} JoinSplit(s: string, sep: char)
    ensures Join(Split(s, sep), sep) == s
    decreases |s|
  {
    if |s| > 0 {
      var t := s[..|s| - 1];
      var c := s[|s| - 1];
      assert s == t + [c];
      var init := Split(t, sep);
      JoinSplit(t, sep);
      if c == sep {
        var parts := init + [""];
        assert Split(s, sep) == parts;
        assert parts[..|parts| - 1] == init;
        assert Join(parts, sep) == Join(init, sep) + [sep] + "";
      } else {
        assert Split(s, sep) == init[..|init| - 1] + [init[|init| - 1] + [c]];
        JoinExtendLast(init, [c], sep);
      }
    }
  }

  /** Splitting a separator-free tail onto the text extends its last piece. */
  lemma {:induction false} SplitAppendPiece(s: string, p: string, sep: char)
    requires sep !in p
    ensures var before := Split(s, sep);
            Split(s + p, sep) == before[..|before| - 1] + [before[|before| - 1] + p]
    decreases |p|
  {
    var before := Split(s, sep);
    var n := |before|;
    if |p| == 0 {
      assert s + p == s;
      ExtendLastByNothing(before);
    } else {
      var q := p[..|p| - 1];
      var c := p[|p| - 1];
      assert p == q + [c];
      assert sep !in q by {
        forall i | 0 <= i < |q| ensures q[i] != sep { assert q[i] == p[i]; }
      }
      SplitAppendPiece(s, q, sep);
      assert s + p == (s + q) + [c];
      SplitAppendChar(s + q, c, sep);
      ExtendLastTwice(before, q, c);
    }
  }

  /** A character other than the separator extends the last piece. */
  lemma SplitAppendChar(t: string, c: char, sep: char)
    requires c != sep
    ensures var parts := Split(t, sep);
            Split(t + [c], sep) == parts[..|parts| - 1] + [parts[|parts| - 1] + [c]]
  {
    assert (t + [c])[..|t|] == t;
  }

  lemma ExtendLastByNothing<T>(parts: seq<seq<T>>)
    requires |parts| >= 1
    ensures parts[..|parts| - 1] + [parts[|parts| - 1] + []] == parts
  {
    assert parts[|parts| - 1] + [] == parts[|parts| - 1];
  }

  lemma ExtendLastTwice<T>(parts: seq<seq<T>>, q: seq<T>, c: T)
    requires |parts| >= 1
    ensures var n := |parts|;
            var mid := parts[..n - 1] + [parts[n - 1] + q];
            mid[..n - 1] + [mid[n - 1] + [c]] == parts[..n - 1] + [parts[n - 1] + (q + [c])]
  {
    var n := |parts|;
    var mid := parts[..n - 1] + [parts[n - 1] + q];
    assert mid[..n - 1] == parts[..n - 1];
    assert mid[n - 1] + [c] == parts[n - 1] + (q + [c]);
  }

  /** A separator at the end of the text opens a new, empty piece. */
  lemma SplitSepAppended(t: string, sep: char)
    ensures Split(t + [sep], sep) == Split(t, sep) + [""]
  {
    assert (t + [sep])[..|t|] == t;
  }

  /** Splitting is the inverse of joining pieces that hold no separator. */
  lemma {:induction false} SplitJoin(parts: seq<string>, sep: char)
    requires |parts| >= 1
    requires forall i :: 0 <= i < |parts| ==> sep !in parts[i]
    ensures Split(Join(parts, sep), sep) == parts
    decreases |parts|
  {
    var n := |parts|;
    var last := parts[n - 1];
    assert sep !in last;
    if n == 1 {
      SplitAppendPiece([], last, sep);
      assert [] + last == last;
    } else {
      var init := parts[..n - 1];
      SplitJoin(init, sep);
      SplitJoinStep(init, last, sep);
      assert init + [last] == parts;
    }
  }

  lemma SplitJoinStep(init: seq<string>, last: string, sep: char)
    requires |init| >= 1 && sep !in last
    requires Split(Join(init, sep), sep) == init
    ensures Split(Join(init + [last], sep), sep) == init + [last]
  {
    var parts := init + [last];
    var n := |parts|;
    assert parts[..n - 1] == init;
    var front := Join(init, sep) + [sep];
    assert Join(parts, sep) == front + last;
    SplitSepAppended(Join(init, sep), sep);
    SplitAppendPiece(front, last, sep);
    var before := init + [""];
    assert before[..n - 1] == init;
    assert before[n - 1] + last == last;
  }

  /** A split has one more piece than the text has separators. */
  lemma {:induction false} SplitCount(s: string, sep: char)
    ensures |Split(s, sep)| == CountIf(s, x => x == sep) + 1
    decreases |s|
  {
    if |s| > 0 {
      SplitCount(s[..|s| - 1], sep);
    }
  }

  /** The first piece of a split is a prefix of the text. */
  lemma FirstPieceIsPrefix(s: string, sep: char)
    ensures StartsWith(s, Split(s, sep)[0])
  {
    var parts := Split(s, sep);
    JoinSplit(s, sep);
    JoinFirstIsPrefix(parts, sep);
  }

  lemma {:induction false} JoinFirstIsPrefix(parts: seq<string>, sep: char)
    requires |parts| >= 1
    ensures StartsWith(Join(parts, sep), parts[0])
    decreases |parts|
  {
    if |parts| > 1 {
      var init := parts[..|parts| - 1];
      JoinFirstIsPrefix(init, sep);
      var j := Join(init, sep);
      assert Join(parts, sep)[..|j|] == j;
      assert Join(parts, sep)[..|parts[0]|] == j[..|parts[0]|];
    }
  }

  /** The first piece of a split stops at the end of the text or at a separator. */
  lemma FirstPieceEnd(s: string, sep: char)
    ensures |Split(s, sep)[0]| < |s| ==> s[|Split(s, sep)[0]|] == sep
  {
    var parts := Split(s, sep);
    JoinSplit(s, sep);
    if |parts| > 1 {
      JoinFirstSep(parts, sep);
    }
  }

  /** In a join of two or more pieces, a separator follows the first piece. */
  lemma {:induction false} JoinFirstSep(parts: seq<string>, sep: char)
    requires |parts| >= 2
    ensures |parts[0]| < |Join(parts, sep)| && Join(parts, sep)[|parts[0]|] == sep
    decreases |parts|
  {
    var init := parts[..|parts| - 1];
    var j := Join(init, sep);
    if |parts| == 2 {
      assert j == parts[0];
    } else {
      JoinFirstSep(init, sep);
    }
    assert Join(parts, sep) == j + [sep] + parts[|parts| - 1];
  }

  /** Python's `str.isspace` for a single character. */
  predicate IsSpace(c: char) {
    || c == ' ' || c == '\t' || c == '\n' || c == '\r'
    || c == '\U{000B}' || c == '\U{000C}'
    || ('\U{001C}' <= c <= '\U{001F}')
    || c == '\U{0085}' || c == '\U{00A0}' || c == '\U{1680}'
    || ('\U{2000}' <= c <= '\U{200A}')
    || c == '\U{2028}' || c == '\U{2029}' || c == '\U{202F}'
    || c == '\U{205F}' || c == '\U{3000}'
  }

  /** `s.rstrip()`: the prefix left after removing trailing whitespace. */
  function TrimEnd(s: string): (r: string)
    ensures |r| <= |s| && r == s[..|r|]
    ensures forall i :: |r| <= i < |s| ==> IsSpace(s[i])
    ensures |r| > 0 ==> !IsSpace(r[|r| - 1])
  {
    if |s| == 0 || !IsSpace(s[|s| - 1]) then s
    else TrimEnd(s[..|s| - 1])
  }

  /** Number of leading whitespace characters of `s`. */
  function LeadingSpaces(s: string): (k: nat)
    ensures k <= |s|
    ensures forall i :: 0 <= i < k ==> IsSpace(s[i])
    ensures k < |s| ==> !IsSpace(s[k])
  {
    if |s| == 0 || !IsSpace(s[0]) then 0 else 1 + LeadingSpaces(s[1..])
  }

  /**
   `s.strip()`: the slice of `s` that starts after its leading whitespace and
   stops before its trailing whitespace; it neither starts nor ends with
   whitespace.
   */
  function Strip(s: string): (r: string)
    ensures LeadingSpaces(s) + |r| <= |s|
    ensures r == s[LeadingSpaces(s)..LeadingSpaces(s) + |r|]
    ensures forall i :: LeadingSpaces(s) + |r| <= i < |s| ==> IsSpace(s[i])
    ensures |r| > 0 ==> !IsSpace(r[0]) && !IsSpace(r[|r| - 1])
  {
    var a := LeadingSpaces(s);
    var t := s[a..];
    var r := TrimEnd(t);
    assert forall i :: a + |r| <= i < |s| ==> s[i] == t[i - a];
    r
  }
}

=== FILE: wrappers.dfy ===
/** Optional values, standing for Python's `None` and for keys missing from a JSON object. */
module Wrappers {

  datatype Option<+T> = None | Some(value: T) {

    /** The value, or `default` when there is none (Python's `x or default` for a present value). */
    function GetOr(default: T): T {
      match this
      case Some(v) => v
      case None => default
    }
  }
}
